=== FILE: README.md ===
# Case-study migration: vocabulary extraction and brXM node-tree decoration

This project is a Dafny model of the two pure-logic components of the
case-study migration, together with proofs about them.

The **vocabulary extractor** (`src/case_study_extractor.py`) works as follows:
- It reads the exported rows, skipping the header row.
- Each remaining row becomes one case study:
  - the impact-types cell is split on commas and every token is trimmed;
  - one trailing `", "` is cleaned off the document URL.
- It collects the raw region, sector, impact-group and impact-type values into four sets.
- It turns each set into a key → display dictionary sorted by key. A key is the value with:
  - characters outside `[A-Za-z0-9 _-]` stripped,
  - whitespace runs turned into `_`,
  - the result lower-cased.
- It then rewrites every case study in place:
  - region, sector and impact group become the first key, in sorted order, whose display value is a substring of the raw field;
  - impact types become every key whose display value is one of the tokens.

The **decorator** (`src/case_study_brxm_yaml_decorator.py`) builds the Bloomreach (brXM) node tree:
- The top is the `/migrated-case-studies` folder node.
- The folder holds one handle per case study, named `/` + the slug of its title.
- Each handle holds a draft version `[1]` and an unpublished version `[2]`. The two share one translation id.
- Each version embeds a `hippo:resource` node for the downloaded document. That node has a `hippo:text` resource when the document is a PDF.
- The tree is built by Python dictionary assignment: a repeated slug overwrites the earlier handle.

Modules:
- `wrappers.dfy`: `Option`, `Result` and `Outcome`.
- `text.dfy` (`Text`): the Python string operations the code relies on. These are `str.isspace`, `split` (with a join of the model's own as its inverse), `strip`, `rfind`, `lower`, `replace`, `re.sub(r'\s+', '_', …)`, the substring test `in`, and string ordering.
- `node_tree.dfy` (`NodeTree`): insertion-ordered dictionaries with the semantics of `d[name] = v`, nested assignment through a path, and the assignment loop `for x, y in zip(xs, ys): d[key(x)] = value(x, y)`.
- `extractor.dfy` (`CaseStudyExtractor`): models `src/case_study_extractor.py`.
- `decorator.dfy` (`CaseStudyDecorator`): models `src/case_study_brxm_yaml_decorator.py`.

Where the two source files are imperative, so is the model:
- `get_dict`'s loop of `d.update` is a method over a `map`.
- `redecorate_case_studies` rewrites an `array` of case studies field by field.
- The extraction loop is a `while` loop that accumulates four sets and a list.
- The folder loop is a `while` loop of nested assignments.

Each method is proved against a specification function: `IsVocabularyOf`, `Redecorated`, `Parsed`/`Collected`, or `FolderFields`. The lemmas prove what the source promises about those functions.

Two behaviours of the code worth stating plainly:
- **Impact types.** Region, sector and impact group are matched by substring, but line 26 of the extractor tests list membership (`v in case_study['impact_types']` on a list of tokens), so an impact-type value must equal a token exactly.
- **Document counters.** Line 32 of the decorator removes, in one left-to-right pass, every occurrence of an optional whitespace character followed by a single-digit `(d)`. A counter with two or more digits, such as ` (12)`, stays (`TwoDigitCounterKept`), and a single-digit counter in the middle of a name goes too.

## Model

| member | source | states |
|---|---|---|
| Text.Lower | src/case_study_brxm_yaml_decorator.py:19 | `lower()` keeps the length and lowers each ASCII capital by 32 code points; every other character is unchanged |
| Text.ReplaceChar | src/case_study_brxm_yaml_decorator.py:19 | `replace(' ', '-')` keeps the length; every space becomes a hyphen and every other character stays |
| Text.Take | src/case_study_brxm_yaml_decorator.py:19 | `[:50]` is a prefix of the input holding exactly its first 50 characters, or the whole string when it has 50 or fewer |
| Text.Filter | src/case_study_brxm_yaml_decorator.py:18 | deleting the characters outside a class leaves only class characters, each taken from the input; text already inside the class is unchanged; a single character is kept exactly when it is in the class |
| Text.FilterAppend | src/case_study_brxm_yaml_decorator.py:18 | filtering distributes over concatenation, so, with the one-character case, every class character of the input survives in its order and every other character goes |
| Text.CollapseSpace | src/case_study_brxm_yaml_decorator.py:35 | `re.sub(r'\s+', '_', s)` leaves no whitespace, introduces no character except `_`, never lengthens, and leaves whitespace-free text alone |
| Text.CollapseSpaceRun | src/case_study_brxm_yaml_decorator.py:35 | a non-empty run made only of whitespace becomes exactly one `_` |
| Text.CollapseSpaceAppend | src/case_study_brxm_yaml_decorator.py:35 | text cut at a point that does not split a whitespace run collapses piece by piece, so each maximal whitespace run is replaced by one `_` independently of the rest |
| Text.IsSpace | src/case_study_brxm_yaml_decorator.py:32-35 | `\s` matches space, tab, newline and carriage return, and never a letter, digit, `_` or `-` |
| Text.Contains | src/case_study_extractor.py:23-25 | the substring test `v in s` holds only when `v` is no longer than `s` |
| Text.Less | src/case_study_extractor.py:19 | string ordering is strict: no key is below itself |
| Text.CollapseSpaceAvoids | src/case_study_brxm_yaml_decorator.py:35 | a character other than `_` that is absent before collapsing is absent after it |
| Text.CollapseSpaceKeepsSolid | src/case_study_extractor.py:17 | collapsing whitespace keeps every character that is neither whitespace nor `_`, in order |
| Text.TrimStart | src/case_study_extractor.py:41 | the left-stripped string is a suffix of the input; everything removed is whitespace and the result starts with a non-space |
| Text.TrimEnd | src/case_study_extractor.py:41 | the right-stripped string is a prefix of the input; everything removed is whitespace and the result ends with a non-space |
| Text.Strip | src/case_study_extractor.py:41 | `strip()` returns the slice of the input between its leading and trailing whitespace, and the result neither starts nor ends with whitespace |
| Text.LastIndexOf | src/case_study_brxm_yaml_decorator.py:29 | `rfind` is -1 or an index holding the character, and no later index holds it |
| Text.AfterLastIndexOf | src/case_study_brxm_yaml_decorator.py:29 | the text after the last `/` holds no `/` |
| Text.LastIndexOfAppend | src/case_study_brxm_yaml_decorator.py:29 | appending text without the character does not move its last occurrence |
| Text.Split | src/case_study_extractor.py:41 | `split(',')` returns at least one part, and no part contains a comma |
| Text.JoinSplit | src/case_study_extractor.py:41 | joining the parts of a split with the separator gives back the cell, so splitting loses nothing |
| Text.SplitJoin | src/case_study_extractor.py:41 | splitting the join of separator-free parts gives back exactly those parts |
| Text.ContainsItself | src/case_study_extractor.py:23-25 | every string is a substring of itself, so a collected raw value matches its own vocabulary entry |
| Text.LessIrreflexive | src/case_study_extractor.py:19 | the key order of a sorted dictionary is irreflexive |
| Text.LessTransitive | src/case_study_extractor.py:19 | the key order of a sorted dictionary is transitive |
| Text.LessTotal | src/case_study_extractor.py:19 | any two distinct keys are ordered one way or the other |
| NodeTree.PutValid | src/case_study_brxm_yaml_decorator.py:141 | assignment keeps every name listed once; a new name is appended and an existing one keeps its position |
| NodeTree.PutTwice | src/case_study_brxm_yaml_decorator.py:141 | a second assignment to a name replaces the first outright |
| NodeTree.PutResolves | src/case_study_brxm_yaml_decorator.py:146 | a dictionary just assigned under a name can be indexed through that name |
| NodeTree.Put | src/case_study_brxm_yaml_decorator.py:141 | after `d[name] = v`, `d[name]` is `v`, and at most one name was added |
| NodeTree.PutKeepsOthers | src/case_study_brxm_yaml_decorator.py:141 | `d[name] = v` leaves the value of every other name unchanged |
| NodeTree.PutPath | src/case_study_brxm_yaml_decorator.py:146-149 | nested assignment through a non-empty path leaves the outermost dictionary's names unchanged |
| NodeTree.PutPathSpec | src/case_study_brxm_yaml_decorator.py:146-149 | `d[p1]…[pn][name] = v` stores `v` in the dictionary at the end of the path exactly as a direct assignment there would, and every dictionary passed through keeps its names and all its other entries |
| NodeTree.PutNested | src/case_study_brxm_yaml_decorator.py:141-146 | assigning a handle and then a child through the path builds the same tree as assigning the finished handle once |
| NodeTree.FirstAppearances | src/case_study_brxm_yaml_decorator.py:141 | the names a dictionary gains from repeated assignment are distinct, and they are exactly the assigned names |
| NodeTree.Keys | src/case_study_brxm_yaml_decorator.py:138-141 | the handle name of each element, one per element, in order |
| NodeTree.AssignAll | src/case_study_brxm_yaml_decorator.py:137-149 | a completed assignment loop adds at most one name per element |
| NodeTree.AssignAllSucceeds | src/case_study_brxm_yaml_decorator.py:137-149 | the assignment loop completes exactly when every value can be produced |
| NodeTree.AssignAllStep | src/case_study_brxm_yaml_decorator.py:137-149 | one more round assigns the next element's value under its key |
| NodeTree.AssignAllFirstFailure | src/case_study_brxm_yaml_decorator.py:137-149 | the loop fails with the error of the first value that fails, whatever comes after it |
| NodeTree.PutAfter | src/case_study_brxm_yaml_decorator.py:141 | a name new to the base names goes after them, once |
| NodeTree.AssignAllNames | src/case_study_brxm_yaml_decorator.py:135-149 | after the loop the dictionary lists its own names first, then each assigned key once, in order of first appearance |
| NodeTree.AssignAllKeeps | src/case_study_brxm_yaml_decorator.py:135-149 | a name the loop never assigns keeps its original value |
| NodeTree.AssignAllLastWins | src/case_study_brxm_yaml_decorator.py:141 | the last element assigned under a key owns it: its value is what the dictionary holds |
| Text.EndsWith | src/case_study_extractor.py:7 | `endswith(suffix)` holds only when the text is something followed by the suffix |
| Text.EndsWithConcat | src/case_study_extractor.py:7 | anything followed by a suffix ends with it |
| CaseStudyExtractor.CleanUpUrl | src/case_study_extractor.py:6-10 | a URL ending in `", "` loses exactly those two characters; any other URL is returned unchanged |
| CaseStudyExtractor.Key | src/case_study_extractor.py:17 | every key uses only `[a-z0-9_-]` and holds no whitespace |
| CaseStudyExtractor.Insert | src/case_study_extractor.py:19 | inserting a new key into a sorted dictionary keeps it strictly sorted and adds exactly that entry |
| CaseStudyExtractor.SortedDict | src/case_study_extractor.py:19 | `SortedDict(d)` iterates exactly the keys of `d`, in strictly ascending order, each with its value in `d` |
| CaseStudyExtractor.GetDict | src/case_study_extractor.py:12-19 | the result is sorted, its keys are exactly the keys of the input values, and each stored value is an input value filed under its own key |
| CaseStudyExtractor.SortedKeysDistinct | src/case_study_extractor.py:19 | a sorted dictionary has one entry per key |
| CaseStudyExtractor.ImageSize | src/case_study_extractor.py:12-19 | a function takes at most as many values on a set as the set has elements, and exactly as many iff it is injective on the set |
| CaseStudyExtractor.VocabularySize | src/case_study_extractor.py:12-19 | a vocabulary has at most as many entries as input values, and exactly as many iff no two values share a key |
| CaseStudyExtractor.VocabularyKeepsEveryValue | src/case_study_extractor.py:12-19 | without shared keys, every input value sits in the vocabulary under its own key |
| CaseStudyExtractor.MatchingKeys | src/case_study_extractor.py:23-26 | the comprehension keeps exactly the keys whose display value matches, and on a sorted dictionary it lists them in strictly ascending order |
| CaseStudyExtractor.FirstMatchIsLeast | src/case_study_extractor.py:23-25 | `[...][0]` fails exactly when no display value is a substring of the raw field; otherwise it is the least such key |
| CaseStudyExtractor.Redecorated | src/case_study_extractor.py:21-26 | a rewrite keeps the title and the document URL |
| CaseStudyExtractor.RedecoratedSpec | src/case_study_extractor.py:21-26 | a case study is rewritten iff its region, sector and impact group each have a match, and a failure names the first field without one. On success the three fields become their least matching keys and impact types become the ascending keys whose display value is one of the tokens. Title and URL are unchanged |
| CaseStudyExtractor.RedecoratedWithoutCollisions | src/case_study_extractor.py:21-26 | when no two collected values share a key, a case study built from collected values is always rewritten, and its impact types become exactly the keys of its tokens |
| CaseStudyExtractor.SingularMatches | src/case_study_extractor.py:23-25 | without shared keys, a collected raw value always finds a match in its vocabulary |
| CaseStudyExtractor.Redecorate | src/case_study_extractor.py:21-26 | the in-place loop passes iff every case study can be rewritten, and then each holds its rewrite. Otherwise it stops at the first case study without a match: the earlier ones are rewritten and the later ones are untouched |
| CaseStudyExtractor.RedecorateList | src/case_study_extractor.py:65 | the list is rewritten iff every case study can be rewritten, each into its own rewrite; otherwise the failure names a case study that fails, and every earlier one succeeds |
| CaseStudyExtractor.ImpactTypeTokens | src/case_study_extractor.py:41 | token i is part i of `split(',')` with its surrounding whitespace stripped: one token per part, none containing a comma, and none starting or ending with whitespace |
| CaseStudyExtractor.DataRows | src/case_study_extractor.py:40 | `data[1:]` drops exactly the header row and keeps the rest in order |
| CaseStudyExtractor.ParseRow | src/case_study_extractor.py:48-55 | title, region, sector and impact group are the row's first four cells, impact type i is part i of the fifth cell split on `,` with its surrounding whitespace stripped, and the URL is the sixth cell with one trailing `", "` removed when it ends so, and unchanged otherwise |
| CaseStudyExtractor.Collected | src/case_study_extractor.py:43-46 | the region, sector and impact-group sets each hold at most one value per case study |
| CaseStudyExtractor.CollectedAppend | src/case_study_extractor.py:43-46 | one more row adds its region, sector, impact group and tokens to the four sets |
| CaseStudyExtractor.CollectedHoldsEveryValue | src/case_study_extractor.py:43-46 | every raw value of every case study ends up in its set |
| CaseStudyExtractor.NoMatchNeedsCollision | src/case_study_extractor.py:59-65 | a case study can only fail to match its own vocabularies when two collected values share a key |
| CaseStudyExtractor.ReadStep | src/case_study_extractor.py:40-55 | after one more row, the list holds one more case study, built from that row |
| CaseStudyExtractor.ReadRows | src/case_study_extractor.py:40-55 | the row loop succeeds iff every data row has six columns, and otherwise reports the first short row. On success it yields one case study per data row, in order, together with the four sets of their raw values |
| CaseStudyExtractor.ExtractCaseStudies | src/case_study_extractor.py:28-67 | extraction fails on a malformed row exactly when one exists. On success the vocabularies are dictionaries of the collected sets and every case study is the rewrite of its row. Without shared keys it always succeeds on well-formed rows. A failure to match is real: for some vocabulary of the collected sets, the named case study fails on the named field after every earlier one was rewritten |
| CaseStudyDecorator.NodeName | src/case_study_brxm_yaml_decorator.py:16-19 | a slug has at most 50 characters, all from `[a-z0-9-]` |
| CaseStudyDecorator.NodeNameIdempotent | src/case_study_brxm_yaml_decorator.py:16-19 | when the ASCII fold leaves ASCII alone, the slug of a slug is itself |
| CaseStudyDecorator.Slug | src/case_study_brxm_yaml_decorator.py:138 | a case study's node name is its title's slug: at most 50 characters, all from `[a-z0-9-]` |
| CaseStudyDecorator.RemoveCounters | src/case_study_brxm_yaml_decorator.py:32 | removing counters never lengthens a name |
| CaseStudyDecorator.RemoveCountersAvoids | src/case_study_brxm_yaml_decorator.py:32 | removing counters brings in no character |
| CaseStudyDecorator.RemoveCountersWithoutParen | src/case_study_brxm_yaml_decorator.py:32 | a name without `(` has no counter and is unchanged |
| CaseStudyDecorator.CounterRemoved | src/case_study_brxm_yaml_decorator.py:31-32 | a single-digit counter goes with the space in front of it: `a (1).b` becomes `a.b` |
| CaseStudyDecorator.TwoDigitCounterKept | src/case_study_brxm_yaml_decorator.py:32 | a two-digit counter is no counter: ` (12)` is kept, space included |
| CaseStudyDecorator.CounterBeforeExtension | src/case_study_brxm_yaml_decorator.py:31-32 | for any stem and extension without `(`, whatever whitespace the stem holds, `stem (d)ext` becomes `stemext` |
| CaseStudyDecorator.FilenameIsSegment | src/case_study_brxm_yaml_decorator.py:28-37 | a stored file name contains no `/` and no whitespace |
| CaseStudyDecorator.FilenameOfLastSegment | src/case_study_brxm_yaml_decorator.py:29 | only the text after the last `/` determines the file name |
| CaseStudyDecorator.FilenameDropsCounter | src/case_study_brxm_yaml_decorator.py:28-37 | the document at `…/stem (d)ext` is stored as `stem` + `ext` with each whitespace run turned into `_`: `a b (1).docx` becomes `a_b.docx` |
| CaseStudyDecorator.Filename | src/case_study_brxm_yaml_decorator.py:28-37 | a stored file name is no longer than its URL and holds no whitespace |
| CaseStudyDecorator.SplitExt | src/case_study_brxm_yaml_decorator.py:40 | `os.path.splitext` splits the name into root and extension; a non-empty extension starts with `.` and holds no further `.` or `/`. The extension is empty exactly when the last segment has no `.` after a character other than `.`, so leading dots stay in the root |
| CaseStudyDecorator.SplitExtLeadingDots | src/case_study_brxm_yaml_decorator.py:40 | `.pdf` splits into `(".pdf", "")`, while `a.pdf` splits into `("a", ".pdf")` |
| CaseStudyDecorator.SplitExtOfName | src/case_study_brxm_yaml_decorator.py:40 | the extension of `root.ext` is `.ext` when the root's last segment has something other than dots |
| CaseStudyDecorator.MimeType | src/case_study_brxm_yaml_decorator.py:39-40 | the lookup succeeds iff the extension is in the table, returns that entry, and otherwise raises the error for that extension |
| CaseStudyDecorator.MimeTypeOfName | src/case_study_brxm_yaml_decorator.py:39-40 | the MIME type of `root.ext` is the table entry for `.ext` |
| CaseStudyDecorator.StoredPath | src/case_study_brxm_yaml_decorator.py:59 | the stored path is `documents/`, then the slug, then `/`, then the file name; for a file name without `/`, its last segment is the file name |
| CaseStudyDecorator.TextPath | src/case_study_brxm_yaml_decorator.py:79 | the text path is the stored path of the file name with `_text` put between its `splitext` root and extension, five characters longer |
| CaseStudyDecorator.TextPathOfName | src/case_study_brxm_yaml_decorator.py:78-79 | the text of `root.ext` is stored beside the document as `root_text.ext` |
| CaseStudyDecorator.Resource | src/case_study_brxm_yaml_decorator.py:71-74 | a binary resource is the dictionary `{'type': 'binary', 'resource': path}`, those two names in that order |
| CaseStudyDecorator.ResourceFields | src/case_study_brxm_yaml_decorator.py:59-75 | the resource node has type `hippo:resource`, the file name, the MIME type and the timestamp. Its binary data is `documents/<slug>/<filename>` and it has no text resource yet |
| CaseStudyDecorator.ResourceNode | src/case_study_brxm_yaml_decorator.py:77-86 | a `hippo:text` resource is present iff the MIME type is `application/pdf`, at `documents/<slug>/<root>_text<ext>`; nothing else changes |
| CaseStudyDecorator.DocumentNode | src/case_study_brxm_yaml_decorator.py:56-88 | the document node exists iff the file name's extension has a MIME type, is the resource node of that file, and otherwise is the error for that extension |
| CaseStudyDecorator.CaseStudyFields | src/case_study_brxm_yaml_decorator.py:100-125 | the case-study node has type `hee:caseStudy`, the given state, availability and translation id, and locale `en`. It has the given title, the region, sector, impact group and impact types unchanged, and the document |
| CaseStudyDecorator.CaseStudyNode | src/case_study_brxm_yaml_decorator.py:100-125 | a version exists iff its document has a MIME type. It carries the transliterated title, the vocabulary fields unchanged and that document node |
| CaseStudyDecorator.DocumentHandle | src/case_study_brxm_yaml_decorator.py:21-26 | the handle object lists its three properties once, in order, has type `hippo:handle`, the three mixin types, and is named by the raw title |
| CaseStudyDecorator.ChildNamesDiffer | src/case_study_brxm_yaml_decorator.py:146-149 | the draft `[1]` and unpublished `[2]` names differ from each other and from the handle's properties |
| CaseStudyDecorator.HandleNode | src/case_study_brxm_yaml_decorator.py:141-149 | a finished handle lists its three properties, then the draft, then the unpublished version, each once |
| CaseStudyDecorator.HandleFor | src/case_study_brxm_yaml_decorator.py:141-149 | a case study's handle exists iff its document has a MIME type, and otherwise is that document's error |
| CaseStudyDecorator.HandleShape | src/case_study_brxm_yaml_decorator.py:141-149 | a handle is named by the raw title and holds exactly two children. `[1]` is a draft with availability `[]` and `[2]` is unpublished with availability `["preview"]`, and both carry the same translation id |
| CaseStudyDecorator.HandleForParts | src/case_study_brxm_yaml_decorator.py:141-149 | a handle is the handle object with the draft and then the unpublished version assigned into it |
| CaseStudyDecorator.FolderObject | src/case_study_brxm_yaml_decorator.py:90-98 | the folder object has type `hippostd:folder`, its three mixin types, the name `Migrated Case Studies`, both folder types, the generated translation id and locale `en` |
| CaseStudyDecorator.FolderObjectValid | src/case_study_brxm_yaml_decorator.py:90-98 | the folder object lists each of its properties once |
| CaseStudyDecorator.HandleNameInjective | src/case_study_brxm_yaml_decorator.py:141 | two case studies share a handle exactly when they share a slug |
| CaseStudyDecorator.HandleName | src/case_study_brxm_yaml_decorator.py:141 | a handle is filed under `/` followed by the slug |
| CaseStudyDecorator.DraftName | src/case_study_brxm_yaml_decorator.py:146 | the draft version is filed under the handle name followed by `[1]` |
| CaseStudyDecorator.UnpublishedName | src/case_study_brxm_yaml_decorator.py:149 | the unpublished version is filed under the handle name followed by `[2]` |
| CaseStudyDecorator.HandleNameIsNoFolderProperty | src/case_study_brxm_yaml_decorator.py:135-141 | no handle name is a property of the folder object |
| CaseStudyDecorator.FolderSucceeds | src/case_study_brxm_yaml_decorator.py:137-149 | the folder is built iff every case study's document has a MIME type |
| CaseStudyDecorator.FolderFirstError | src/case_study_brxm_yaml_decorator.py:137-149 | a failing run fails with the error of the first case study whose document has no MIME type |
| CaseStudyDecorator.FolderNames | src/case_study_brxm_yaml_decorator.py:135-149 | the folder lists its own properties, then one handle per distinct slug in the order the slugs first appear, each once |
| CaseStudyDecorator.FolderFields | src/case_study_brxm_yaml_decorator.py:135-149 | a completed folder gains at most one handle per case study |
| CaseStudyDecorator.FolderKeepsProperties | src/case_study_brxm_yaml_decorator.py:135-149 | the folder's own properties are never overwritten by a handle |
| CaseStudyDecorator.FolderHandle | src/case_study_brxm_yaml_decorator.py:141 | when case studies share a slug, the handle filed under it is the one built for the last of them |
| CaseStudyDecorator.FolderStep | src/case_study_brxm_yaml_decorator.py:137-149 | one more round assigns the next case study's handle under its handle name |
| CaseStudyDecorator.FolderStopsAt | src/case_study_brxm_yaml_decorator.py:137-149 | a round whose document has no MIME type ends the whole run with that document's error |
| CaseStudyDecorator.RoundAssigns | src/case_study_brxm_yaml_decorator.py:141-149 | assigning the handle and then its two versions through `/migrated-case-studies` builds the same tree as assigning the finished handle once |
| CaseStudyDecorator.DecorateCaseStudy | src/case_study_brxm_yaml_decorator.py:138-149 | the loop body succeeds iff the document has a MIME type. On success it leaves the folder with the case study's handle assigned under `/` + slug |
| CaseStudyDecorator.FolderRound | src/case_study_brxm_yaml_decorator.py:137-149 | a round either extends the folder by one more case study, or ends the run with the error the whole run fails with |
| CaseStudyDecorator.DecorateEach | src/case_study_brxm_yaml_decorator.py:137-149 | the loop builds exactly the folder the assignments specify, or returns its first error |
| CaseStudyDecorator.DecorateFolder | src/case_study_brxm_yaml_decorator.py:127-151 | the result is `{'/migrated-case-studies': folder}` with the folder object and each case study's handle assigned in input order, or the error of the first document without a MIME type |

## Left out

- The whole of `src/main.py` is not part of this model. It covers YAML dumping, ZIP archiving, directory clean-up, environment variables and debug printing.
- JSON loading (`src/case_study_extractor.py:32-33`) and the debug print (lines 35-36) are not modelled. Extraction starts from the sequence of rows under `data`.
- The download is not modelled. It covers `requests.get`, the spaces percent-encoded, directory creation and the file write. It changes only the disk, and its network and file-system failures are not modelled.
- PDF text extraction with tika, `tika.initVM()` and `mimetypes.init()` are not modelled. The MIME table is the `mimeTypes` map of `Env`.
- `unicodedata.normalize('NFKD', …)` with the ASCII encoding, and `unidecode`, are the function parameters `asciiFold` and `transliterate`. Their Unicode internals are not modelled. `NodeNameIdempotent` assumes the fold leaves ASCII text alone.
- `\s` is modelled as the characters of `str.isspace()` and `\d` as the ASCII digits. Python's `\d` also accepts other Unicode decimal digits.
- `uuid.uuid4()` is not modelled. The folder's id is the parameter `folderId` and the id of each case study is an element of `translationIds`.
- `datetime.now()` is not modelled. Every timestamp of a run is the single parameter `now`, so the model does not distinguish the separate clock readings of one node.
- `CaseStudyDecorator.CaseStudyFields`: does not state the order in which the case-study node lists its properties (source lines 104-123). It also leaves out the values of `jcr:mixinTypes`, `hippostd:retainable`, `hippostdpubwf:createdBy`, `hippostdpubwf:lastModifiedBy`, and the two timestamps `hippostdpubwf:creationDate` and `hippostdpubwf:lastModificationDate`. The dictionary holds all of them as the source assigns them. The full listing of this fourteen-entry dictionary is too costly a proof for the solver.
- `CaseStudyDecorator.ResourceFields`: does not state the order of the document node's properties (source lines 65-75). It also leaves out the value of `jcr:encoding`, which the dictionary holds as `UTF-8`.
- `CaseStudyDecorator.ResourceNode`: does not state where `hippo:text` goes in the order of properties; it is last, as in the source.
- `CaseStudyDecorator.FolderObject`: states every property's value but not the order in which the folder object lists them (source lines 91-98). `FolderObjectValid` states only that each is listed once.
- Property order is stated for `Resource`, `DocumentHandle`, `HandleNode` and the folder's handles (`FolderNames`).
- `CaseStudyDecorator.DecorateFolder`: a run that fails stops with its error, and the partially built dictionary is not returned. In Python that dictionary is lost with the exception.
- `CaseStudyExtractor.ReadRows`: Python raises `IndexError` on a data row with fewer than six columns. The model returns `MalformedRow` with the row's index, counting the header as row 0.
- `CaseStudyExtractor.Redecorate`: Python raises `IndexError` when a field has no match. The model returns `NoMatch` naming the case study and the field.
- `CaseStudyExtractor.GetDict`: iteration over a Python set has no specified order, so the value a shared key ends up with is left open. The contract states what holds for every order, and exact contents are proved only when no two values share a key.
- `CaseStudyDecorator.FolderRound`: states success one way only: a successful round extends the folder. The converse follows from `DecorateEach`'s contract.
- `CaseStudyDecorator.RemoveCounters`: its own contract states only the length bound. What it removes and keeps is stated by the lemmas beside it, not as a full characterisation of the regular expression.

=== FILE: decorator.dfy ===
/** The Bloomreach (brXM) node tree built from the redecorated case studies:
    one folder node holding, per case study, a handle named after a slug of its
    title, and under the handle a draft and an unpublished version of the
    case-study document, each embedding the downloaded file as a resource node.

    The Unicode folding of titles, the MIME table, the clock and the generated
    identifiers come from outside the program; they are the parameters below.
    Downloading the file and extracting the text of a PDF change only the disk,
    never the tree, and are not modelled. */
module CaseStudyDecorator {
  import opened Wrappers
  import opened Text
  import opened NodeTree
  import Extractor = CaseStudyExtractor

  /** What the decorator takes from its libraries: `NFKD` normalisation
      followed by dropping every non-ASCII character, `unidecode`, and the
      extension table `mimetypes.types_map`. */
  datatype Env = Env(
    asciiFold: string -> string,
    transliterate: string -> string,
    mimeTypes: map<string, string>)

  /** The `KeyError` raised by `mimetypes.types_map[ext]`. */
  datatype DecorationError = UnknownMimeType(extension: string)

  const FolderNodeName: string := "/migrated-case-studies"
  const PdfMimeType: string := "application/pdf"

  // ---------------------------------------------------------------- node names

  /** The characters `[A-Za-z0-9 -]` that survive in a node name. */
  predicate IsNameSourceChar(c: char) {
    IsAsciiLetter(c) || IsDigit(c) || c == ' ' || c == '-'
  }

  predicate IsSlugChar(c: char) {
    ('a' <= c <= 'z') || IsDigit(c) || c == '-'
  }

  /** `get_brxm_node_name`: fold to ASCII, drop everything outside
      `[A-Za-z0-9 -]`, keep at most 50 characters, lower-case, and turn
      spaces into hyphens. */
  function NodeName(asciiFold: string -> string, title: string): (slug: string)
    ensures |slug| <= 50
    ensures forall i :: 0 <= i < |slug| ==> IsSlugChar(slug[i])
  {
    ReplaceChar(Lower(Take(Filter(asciiFold(title), IsNameSourceChar), 50)), ' ', '-')
  }

  /** The ASCII fold leaves ASCII text alone (as NFKD followed by dropping
      non-ASCII characters does). */
  ghost predicate FixesAscii(asciiFold: string -> string) {
    forall s :: IsAscii(s) ==> asciiFold(s) == s
  }

  /** A slug is its own node name. */
  lemma NodeNameIdempotent(asciiFold: string -> string, title: string)
    requires FixesAscii(asciiFold)
    ensures NodeName(asciiFold, NodeName(asciiFold, title)) == NodeName(asciiFold, title)
  {
    var slug := NodeName(asciiFold, title);
    assert IsAscii(slug);
    assert asciiFold(slug) == slug;
    var kept := Filter(slug, IsNameSourceChar);
    assert kept == slug;
    assert Take(kept, 50) == slug;
    assert Lower(slug) == slug;
    assert ReplaceChar(slug, ' ', '-') == slug;
  }

  // ----------------------------------------------------------------- filenames

  /** `(d)` with a single digit. */
  predicate IsCounter(t: string) {
    |t| == 3 && t[0] == '(' && IsDigit(t[1]) && t[2] == ')'
  }

  /** `re.sub(r'\s?\(\d\)', '', s)`: one left-to-right pass that removes every
      single-digit counter together with at most one whitespace character
      in front of it. */
  function RemoveCounters(s: string): (r: string)
    ensures |r| <= |s|
    decreases |s|
  {
    if s == [] then []
    else if |s| >= 4 && IsSpace(s[0]) && IsCounter(s[1..4]) then RemoveCounters(s[4..])
    else if |s| >= 3 && IsCounter(s[..3]) then RemoveCounters(s[3..])
    else [s[0]] + RemoveCounters(s[1..])
  }

  /** Removing counters brings in no character. */
  lemma {:induction false} RemoveCountersAvoids(s: string, c: char)
    requires c !in s
    ensures c !in RemoveCounters(s)
    decreases |s|
  {
    if s == [] {
    } else if |s| >= 4 && IsSpace(s[0]) && IsCounter(s[1..4]) {
      assert c !in s[4..] by {
        assert forall x :: x in s[4..] ==> x in s;
      }
      RemoveCountersAvoids(s[4..], c);
    } else if |s| >= 3 && IsCounter(s[..3]) {
      assert c !in s[3..] by {
        assert forall x :: x in s[3..] ==> x in s;
      }
      RemoveCountersAvoids(s[3..], c);
    } else {
      assert c !in s[1..] by {
        assert forall x :: x in s[1..] ==> x in s;
      }
      RemoveCountersAvoids(s[1..], c);
      assert s[0] in s;
    }
  }

  /** A name without `(` has no counter and is left unchanged. */
  lemma {:induction false} RemoveCountersWithoutParen(s: string)
    requires '(' !in s
    ensures RemoveCounters(s) == s
    decreases |s|
  {
    if s != [] {
      assert |s| >= 4 ==> s[1..4][0] == s[1] && s[1] in s;
      assert |s| >= 3 ==> s[..3][0] == s[0] && s[0] in s;
      assert '(' !in s[1..] by {
        assert forall c :: c in s[1..] ==> c in s;
      }
      RemoveCountersWithoutParen(s[1..]);
      assert s == [s[0]] + s[1..];
    }
  }

  /** A single-digit counter goes together with the space in front of it. */
  lemma CounterRemoved()
    ensures RemoveCounters("a (1).b") == "a.b"
  {
    assert RemoveCounters("") == "";
    assert RemoveCounters("b") == "b";
    assert RemoveCounters(".b") == ".b" by {
      assert ".b"[1..] == "b";
    }
    var t := " (1).b";
    assert t[1..4] == "(1)" && IsCounter(t[1..4]) && IsSpace(t[0]);
    assert t[4..] == ".b";
    assert RemoveCounters(t) == ".b";
    var s := "a (1).b";
    assert s[1..] == t;
    assert !IsSpace(s[0]) && !IsCounter(s[..3]);
  }

  /** A counter of two digits is not a counter: it stays, space included. */
  lemma TwoDigitCounterKept()
    ensures RemoveCounters(" (12)") == " (12)"
  {
    assert RemoveCounters("") == "";
    assert RemoveCounters(")") == ")";
    assert RemoveCounters("2)") == "2)" by {
      assert "2)"[1..] == ")";
    }
    var a := "12)";
    assert !IsCounter(a[..3]) && a[1..] == "2)";
    assert RemoveCounters(a) == "12)";
    var b := "(12)";
    assert !IsSpace(b[0]) && !IsCounter(b[..3]) && b[1..] == a;
    assert RemoveCounters(b) == "(12)";
    var c := " (12)";
    assert !IsCounter(c[1..4]) && !IsCounter(c[..3]) && c[1..] == b;
  }

  /** `get_filename`: the text after the last `/`, without counters, with
      every whitespace run turned into one `_`. */
  function Filename(url: string): (name: string)
    ensures |name| <= |url| && NoSpace(name)
  {
    CollapseSpace(RemoveCounters(url[LastIndexOf(url, '/') + 1..]))
  }

  /** A stored file name is a single path segment without whitespace. */
  lemma FilenameIsSegment(url: string)
    ensures '/' !in Filename(url)
    ensures NoSpace(Filename(url))
  {
    var last := url[LastIndexOf(url, '/') + 1..];
    AfterLastIndexOf(url, '/');
    RemoveCountersAvoids(last, '/');
    CollapseSpaceAvoids(RemoveCounters(last), '/');
  }

  /** A single-digit counter between a stem and an extension goes, together
      with the space in front of it. */
  lemma {:induction false} CounterBeforeExtension(stem: string, d: char, ext: string)
    requires '(' !in stem && '(' !in ext && IsDigit(d)
    ensures RemoveCounters(stem + " (" + [d] + ")" + ext) == stem + ext
    decreases |stem|
  {
    var s := stem + " (" + [d] + ")" + ext;
    if stem == [] {
      assert s[1..4] == ['(', d, ')'] && IsSpace(s[0]) && s[4..] == ext;
      RemoveCountersWithoutParen(ext);
    } else {
      assert s[0] == stem[0] && stem[0] in stem;
      assert |stem| >= 2 ==> s[1] == stem[1] && stem[1] in stem;
      assert s[1..] == stem[1..] + " (" + [d] + ")" + ext;
      assert '(' !in stem[1..] by {
        assert forall c :: c in stem[1..] ==> c in stem;
      }
      CounterBeforeExtension(stem[1..], d, ext);
      assert stem + ext == [stem[0]] + (stem[1..] + ext);
    }
  }

  /** The stored name of a downloaded copy `stem (d).ext` is that of `stem.ext`:
      the counter goes, then whitespace runs become `_`. */
  lemma FilenameDropsCounter(prefix: string, stem: string, d: char, ext: string)
    requires '(' !in stem && '/' !in stem
    requires '(' !in ext && '/' !in ext
    requires IsDigit(d)
    ensures Filename(prefix + "/" + stem + " (" + [d] + ")" + ext) == CollapseSpace(stem + ext)
  {
    var segment := stem + " (" + [d] + ")" + ext;
    assert '/' !in segment;
    assert prefix + "/" + stem + " (" + [d] + ")" + ext == prefix + "/" + segment;
    FilenameOfLastSegment(prefix, segment);
    assert LastIndexOf(segment, '/') == -1;
    assert segment[0..] == segment;
    CounterBeforeExtension(stem, d, ext);
  }

  /** Only the last path segment of a URL matters; a URL without `/` is its
      own last segment. */
  lemma FilenameOfLastSegment(prefix: string, segment: string)
    requires '/' !in segment
    ensures Filename(prefix + "/" + segment) == Filename(segment)
  {
    var url := prefix + "/" + segment;
    LastIndexOfAppend(prefix + "/", segment, '/');
    assert LastIndexOf(prefix + "/", '/') == |prefix|;
    assert url[|prefix| + 1..] == segment;
    assert LastIndexOf(segment, '/') == -1;
    assert segment[0..] == segment;
  }

  /** Some character of `p` strictly between `from` and `to` is not a `.`. */
  predicate HasStem(p: string, from: int, to: int)
    requires -1 <= from && to <= |p|
  {
    exists k :: from < k < to && p[k] != '.'
  }

  /** `os.path.splitext(p)` on POSIX: the extension runs from the last `.`
      that comes after the last `/` and after at least one character of the
      last segment that is not a `.`; otherwise it is empty. */
  function SplitExt(p: string): (parts: (string, string))
    ensures parts.0 + parts.1 == p
    ensures parts.1 != [] ==> parts.1[0] == '.'
    ensures forall i :: 1 <= i < |parts.1| ==> parts.1[i] != '.' && parts.1[i] != '/'
    ensures parts.1 != [] ==> HasStem(p, LastIndexOf(p, '/'), |parts.0|)
    ensures parts.1 == [] <==> !DotAfterStem(p)
  {
    var sep := LastIndexOf(p, '/');
    var dot := LastIndexOf(p, '.');
    if sep < dot && HasStem(p, sep, dot) then
      assert p[dot] == '.';
      (p[..dot], p[dot..])
    else
      (p, [])
  }

  /** The last segment of `p` holds a `.` with a character other than `.`
      somewhere before it in that segment: leading dots alone make no stem. */
  ghost predicate DotAfterStem(p: string) {
    exists k, j :: LastIndexOf(p, '/') < k < j < |p| && p[k] != '.' && p[j] == '.'
  }

  /** Leading dots belong to the root: `.pdf` has no extension, while `a.pdf` has `.pdf`. */
  lemma SplitExtLeadingDots()
    ensures SplitExt(".pdf") == (".pdf", "")
    ensures SplitExt("a.pdf") == ("a", ".pdf")
  {
    assert !DotAfterStem(".pdf") by {
      assert LastIndexOf(".pdf", '/') == -1;
      assert forall k :: 0 <= k < 4 && ".pdf"[k] != '.' ==> 1 <= k;
    }
    assert LastIndexOf("a", '/') == -1 && "a"[0] != '.';
    assert "a" + ".pdf" == "a.pdf";
    SplitExtOfName("a", ".pdf");
  }

  /** `.ext` with no further `.` or `/`: what `SplitExt` returns as a non-empty extension. */
  predicate IsExtension(ext: string) {
    |ext| >= 1 && ext[0] == '.' && forall i :: 1 <= i < |ext| ==> ext[i] != '.' && ext[i] != '/'
  }

  /** The last `.` of a name followed by an extension is the extension's. */
  lemma LastDotOfName(root: string, ext: string)
    requires IsExtension(ext)
    ensures LastIndexOf(root + ext, '.') == |root|
  {
    assert LastIndexOf(root + ".", '.') == |root|;
    assert root + ext == (root + ".") + ext[1..];
    LastIndexOfAppend(root + ".", ext[1..], '.');
  }

  /** The last `/` of a name followed by an extension is the name's. */
  lemma LastSlashOfName(root: string, ext: string)
    requires IsExtension(ext)
    ensures LastIndexOf(root + ext, '/') == LastIndexOf(root, '/')
  {
    assert '/' !in ext by {
      forall i | 0 <= i < |ext| ensures ext[i] != '/' {
      }
    }
    LastIndexOfAppend(root, ext, '/');
  }

  /** A name ending in an extension, whose last segment has something other
      than dots in front of it, splits into that name and the extension. */
  lemma SplitExtOfName(root: string, ext: string)
    requires IsExtension(ext)
    requires HasStem(root, LastIndexOf(root, '/'), |root|)
    ensures SplitExt(root + ext) == (root, ext)
  {
    var p := root + ext;
    var sep := LastIndexOf(root, '/');
    LastDotOfName(root, ext);
    LastSlashOfName(root, ext);
    var k :| sep < k < |root| && root[k] != '.';
    assert p[k] == root[k];
    assert HasStem(p, sep, |root|);
    assert p[..|root|] == root;
    assert p[|root|..] == ext;
  }

  /** `get_mime_type`: the table entry for the extension, or the error the
      missing key raises. */
  function MimeType(table: map<string, string>, filename: string): (r: Result<string, DecorationError>)
    ensures r.Success? <==> SplitExt(filename).1 in table
    ensures r.Success? ==> r.value == table[SplitExt(filename).1]
    ensures r.Failure? ==> r.error == UnknownMimeType(SplitExt(filename).1)
  {
    var ext := SplitExt(filename).1;
    if ext in table then Success(table[ext]) else Failure(UnknownMimeType(ext))
  }

  /** The MIME type of `root.ext` is the entry for `.ext`. */
  lemma MimeTypeOfName(table: map<string, string>, root: string, ext: string)
    requires IsExtension(ext)
    requires HasStem(root, LastIndexOf(root, '/'), |root|)
    ensures MimeType(table, root + ext) ==
      if ext in table then Success(table[ext]) else Failure(UnknownMimeType(ext))
  {
    SplitExtOfName(root, ext);
  }

  // ------------------------------------------------------------ document nodes

  /** A `{type: binary, resource: path}` reference to a stored file. */
  function Resource(path: string): (v: Value)
    ensures v.Dict? && v.node.names == ["type", "resource"]
    ensures Get(v.node, "type") == Some(Str("binary")) && Get(v.node, "resource") == Some(Str(path))
  {
    Dict(Put(Put(Empty, "type", Str("binary")), "resource", Str(path)))
  }

  /** Where a case study's document is stored, relative to the output directory. */
  function StoredPath(slug: string, filename: string): (path: string)
    ensures |path| >= 10 && path[..10] == "documents/"
    ensures |path| == |slug| + 11 + |filename|
    ensures path[..|slug| + 11] == "documents/" + slug + "/" && path[|slug| + 11..] == filename
    ensures '/' !in filename ==> path[LastIndexOf(path, '/') + 1..] == filename
  {
    var dir := "documents/" + slug + "/";
    assert LastIndexOf(dir, '/') == |dir| - 1;
    if '/' in filename then dir + filename
    else
      LastIndexOfAppend(dir, filename, '/');
      dir + filename
  }

  /** Where the text extracted from a PDF is stored: beside the document,
      with `_text` between the base name and the extension. */
  function TextPath(slug: string, filename: string): (path: string)
    ensures |path| == |StoredPath(slug, filename)| + 5
    ensures path == StoredPath(slug, SplitExt(filename).0 + "_text" + SplitExt(filename).1)
  {
    var split := SplitExt(filename);
    "documents/" + slug + "/" + split.0 + "_text" + split.1
  }

  /** For `root.ext`, the text sits beside the document as `root_text.ext`. */
  lemma TextPathOfName(slug: string, root: string, ext: string)
    requires IsExtension(ext)
    requires HasStem(root, LastIndexOf(root, '/'), |root|)
    ensures TextPath(slug, root + ext) == StoredPath(slug, root + "_text" + ext)
  {
    SplitExtOfName(root, ext);
  }

  /** The properties every `hippo:resource` document node starts with. */
  function ResourceFields(slug: string, filename: string, mime: string, now: int): (d: Node)
    ensures Get(d, "jcr:primaryType") == Some(Str("hippo:resource"))
    ensures Get(d, "hippo:filename") == Some(Str(filename))
    ensures Get(d, "jcr:mimeType") == Some(Str(mime))
    ensures Get(d, "jcr:lastModified") == Some(Time(now))
    ensures Get(d, "jcr:data") == Some(Resource(StoredPath(slug, filename)))
    ensures Get(d, "hippo:text") == None
  {
    var d := Put(Empty, "jcr:primaryType", Str("hippo:resource"));
    var d := Put(d, "hippo:filename", Str(filename));
    var d := Put(d, "jcr:encoding", Str("UTF-8"));
    var d := Put(d, "jcr:lastModified", Time(now));
    var d := Put(d, "jcr:mimeType", Str(mime));
    Put(d, "jcr:data", Resource(StoredPath(slug, filename)))
  }

  /** The `hippo:resource` node of a stored document whose MIME type is
      known, with a `hippo:text` reference to the extracted text when the
      document is a PDF. */
  function ResourceNode(slug: string, filename: string, mime: string, now: int): (node: Node)
    ensures forall n :: n != "hippo:text" ==> Get(node, n) == Get(ResourceFields(slug, filename, mime, now), n)
    ensures Get(node, "hippo:text").Some? <==> mime == PdfMimeType
    ensures mime == PdfMimeType ==> Get(node, "hippo:text") == Some(Resource(TextPath(slug, filename)))
  {
    var d := ResourceFields(slug, filename, mime, now);
    if mime == PdfMimeType then Put(d, "hippo:text", Resource(TextPath(slug, filename))) else d
  }

  /** The extension of the stored name of a case study's document has a MIME type. */
  predicate HasKnownMimeType(env: Env, cs: Extractor.CaseStudy) {
    SplitExt(Filename(cs.documentUrl)).1 in env.mimeTypes
  }

  /** The error raised for a case study whose document has no MIME type. */
  function MimeError(cs: Extractor.CaseStudy): DecorationError {
    UnknownMimeType(SplitExt(Filename(cs.documentUrl)).1)
  }

  /** `get_document_node` after the download: the resource node of the
      document behind `url`, or the error of an extension without a MIME type. */
  function DocumentNode(env: Env, slug: string, url: string, now: int): (r: Result<Value, DecorationError>)
    ensures var filename := Filename(url);
      var ext := SplitExt(filename).1;
      && (r.Success? <==> ext in env.mimeTypes)
      && (r.Failure? ==> r.error == UnknownMimeType(ext))
      && (r.Success? ==> r.value == Dict(ResourceNode(slug, filename, env.mimeTypes[ext], now)))
  {
    var filename := Filename(url);
    var mime :- MimeType(env.mimeTypes, filename);
    Success(Dict(ResourceNode(slug, filename, mime, now)))
  }

  // --------------------------------------------------------- case-study nodes

  /** `get_decorated_case_study_object` once the document node exists: the
      metadata properties, then the case-study properties, then the document. */
  function CaseStudyFields(
    title: string, cs: Extractor.CaseStudy, state: string, availability: seq<string>,
    translationId: string, now: int, document: Value): (d: Node)
    ensures Get(d, "jcr:primaryType") == Some(Str("hee:caseStudy"))
    ensures Get(d, "hippo:availability") == Some(Strs(availability))
    ensures Get(d, "hippostd:state") == Some(Str(state))
    ensures Get(d, "hippotranslation:id") == Some(Str(translationId))
    ensures Get(d, "hippotranslation:locale") == Some(Str("en"))
    ensures Get(d, "hee:title") == Some(Str(title))
    ensures Get(d, "hee:region") == Some(Str(cs.region))
    ensures Get(d, "hee:sector") == Some(Str(cs.sector))
    ensures Get(d, "hee:impactGroup") == Some(Str(cs.impactGroup))
    ensures Get(d, "hee:impactTypes") == Some(Strs(cs.impactTypes))
    ensures Get(d, "/hee:document") == Some(document)
  {
    var d := Put(Empty, "jcr:primaryType", Str("hee:caseStudy"));
    var d := Put(d, "jcr:mixinTypes", Strs(["mix:referenceable", "mix:versionable"]));
    var d := Put(d, "hippo:availability", Strs(availability));
    var d := Put(d, "hippostd:retainable", Bool(false));
    var d := Put(d, "hippostd:state", Str(state));
    var d := Put(d, "hippostdpubwf:createdBy", Str("admin"));
    var d := Put(d, "hippostdpubwf:lastModifiedBy", Str("admin"));
    var d := Put(d, "hippostdpubwf:creationDate", Time(now));
    var d := Put(d, "hippostdpubwf:lastModificationDate", Time(now));
    var d := Put(d, "hippotranslation:id", Str(translationId));
    var d := Put(d, "hippotranslation:locale", Str("en"));
    var d := Put(d, "hee:title", Str(title));
    var d := Put(d, "hee:region", Str(cs.region));
    var d := Put(d, "hee:sector", Str(cs.sector));
    var d := Put(d, "hee:impactGroup", Str(cs.impactGroup));
    var d := Put(d, "hee:impactTypes", Strs(cs.impactTypes));
    Put(d, "/hee:document", document)
  }

  /** One version of a case study's document: the node carries the given
      state, availability and translation id, locale `en`, the transliterated
      title, and the region, sector, impact group and impact types unchanged. */
  predicate IsVersion(
    v: Value, env: Env, cs: Extractor.CaseStudy, state: string, availability: seq<string>, translationId: string)
  {
    && v.Dict?
    && Get(v.node, "jcr:primaryType") == Some(Str("hee:caseStudy"))
    && Get(v.node, "hippostd:state") == Some(Str(state))
    && Get(v.node, "hippo:availability") == Some(Strs(availability))
    && Get(v.node, "hippotranslation:id") == Some(Str(translationId))
    && Get(v.node, "hippotranslation:locale") == Some(Str("en"))
    && Get(v.node, "hee:title") == Some(Str(env.transliterate(cs.title)))
    && Get(v.node, "hee:region") == Some(Str(cs.region))
    && Get(v.node, "hee:sector") == Some(Str(cs.sector))
    && Get(v.node, "hee:impactGroup") == Some(Str(cs.impactGroup))
    && Get(v.node, "hee:impactTypes") == Some(Strs(cs.impactTypes))
  }

  /** `get_decorated_case_study_object`: one version of the case study's
      document, which fails exactly when its document has no MIME type. */
  function CaseStudyNode(
    env: Env, cs: Extractor.CaseStudy, slug: string, state: string, availability: seq<string>,
    translationId: string, now: int): (r: Result<Value, DecorationError>)
    ensures r.Success? <==> HasKnownMimeType(env, cs)
    ensures r.Failure? ==> r.error == MimeError(cs)
    ensures r.Success? ==>
      && IsVersion(r.value, env, cs, state, availability, translationId)
      && Get(r.value.node, "/hee:document") == Some(DocumentNode(env, slug, cs.documentUrl, now).value)
  {
    var document :- DocumentNode(env, slug, cs.documentUrl, now);
    Success(Dict(CaseStudyFields(env.transliterate(cs.title), cs, state, availability, translationId, now, document)))
  }

  // ------------------------------------------------------------------ handles

  const HandleProperties: seq<string> := ["jcr:primaryType", "jcr:mixinTypes", "hippo:name"]

  /** `get_decorated_document_handle_object`: the handle named by the raw title. */
  function DocumentHandle(title: string): (d: Node)
    ensures Valid(d)
    ensures d.names == HandleProperties
    ensures Get(d, "jcr:primaryType") == Some(Str("hippo:handle"))
    ensures Get(d, "jcr:mixinTypes") == Some(Strs(["hippo:named", "hippo:versionInfo", "mix:referenceable"]))
    ensures Get(d, "hippo:name") == Some(Str(title))
  {
    var d := Put(Empty, "jcr:primaryType", Str("hippo:handle"));
    var d := Put(d, "jcr:mixinTypes", Strs(["hippo:named", "hippo:versionInfo", "mix:referenceable"]));
    Put(d, "hippo:name", Str(title))
  }

  /** The slug a case study is filed under. */
  function Slug(env: Env, cs: Extractor.CaseStudy): (slug: string)
    ensures |slug| <= 50 && forall i :: 0 <= i < |slug| ==> IsSlugChar(slug[i])
  {
    NodeName(env.asciiFold, cs.title)
  }

  /** The two children of a handle: the draft and the unpublished version. */
  function DraftName(slug: string): (name: string)
    ensures |name| == |slug| + 4 && name[..|slug| + 1] == HandleName(slug) && name[|slug| + 1..] == "[1]"
  {
    "/" + slug + "[1]"
  }

  function UnpublishedName(slug: string): (name: string)
    ensures |name| == |slug| + 4 && name[..|slug| + 1] == HandleName(slug) && name[|slug| + 1..] == "[2]"
  {
    "/" + slug + "[2]"
  }

  /** Child node names start with `/`; the handle's property names do not,
      and the two versions differ in their ordinal. */
  lemma ChildNamesDiffer(slug: string)
    ensures DraftName(slug) != UnpublishedName(slug)
    ensures DraftName(slug) !in HandleProperties && UnpublishedName(slug) !in HandleProperties
  {
    assert DraftName(slug)[|slug| + 2] == '1' && UnpublishedName(slug)[|slug| + 2] == '2';
    assert DraftName(slug)[0] == '/' && UnpublishedName(slug)[0] == '/';
    assert forall n :: n in HandleProperties ==> n[0] != '/';
  }

  /** The handle of one case study as the loop body leaves it: the handle
      properties, then the draft version, then the unpublished version. */
  function HandleNode(title: string, slug: string, draft: Value, unpublished: Value): (d: Node)
    ensures Valid(d)
    ensures d.names == HandleProperties + [DraftName(slug)] + [UnpublishedName(slug)]
    ensures Get(d, "jcr:primaryType") == Some(Str("hippo:handle"))
    ensures Get(d, "hippo:name") == Some(Str(title))
    ensures Get(d, DraftName(slug)) == Some(draft)
    ensures Get(d, UnpublishedName(slug)) == Some(unpublished)
  {
    var handle := DocumentHandle(title);
    ChildNamesDiffer(slug);
    PutValid(handle, DraftName(slug), draft);
    var withDraft := Put(handle, DraftName(slug), draft);
    assert UnpublishedName(slug) !in withDraft.names;
    PutValid(withDraft, UnpublishedName(slug), unpublished);
    Put(Put(handle, DraftName(slug), draft), UnpublishedName(slug), unpublished)
  }

  /** One case study's handle, or the error of its document's extension. */
  function HandleFor(env: Env, cs: Extractor.CaseStudy, translationId: string, now: int): (r: Result<Value, DecorationError>)
    ensures r.Success? <==> HasKnownMimeType(env, cs)
    ensures r.Failure? ==> r.error == MimeError(cs)
  {
    var slug := Slug(env, cs);
    var draft :- CaseStudyNode(env, cs, slug, "draft", [], translationId, now);
    // Both versions embed the same document, so the second succeeds with the first.
    var unpublished := CaseStudyNode(env, cs, slug, "unpublished", ["preview"], translationId, now).value;
    Success(Dict(HandleNode(cs.title, slug, draft, unpublished)))
  }

  /** A handle is named by the raw title and holds exactly the draft and the
      unpublished version, which share one translation id. */
  lemma HandleShape(env: Env, cs: Extractor.CaseStudy, translationId: string, now: int)
    requires HasKnownMimeType(env, cs)
    ensures var r := HandleFor(env, cs, translationId, now);
      var slug := Slug(env, cs);
      && r.Success?
      && r.value.Dict?
      && Valid(r.value.node)
      && r.value.node.names == HandleProperties + [DraftName(slug)] + [UnpublishedName(slug)]
      && Get(r.value.node, "jcr:primaryType") == Some(Str("hippo:handle"))
      && Get(r.value.node, "hippo:name") == Some(Str(cs.title))
      && Get(r.value.node, DraftName(slug)).Some?
      && IsVersion(Get(r.value.node, DraftName(slug)).value, env, cs, "draft", [], translationId)
      && Get(r.value.node, UnpublishedName(slug)).Some?
      && IsVersion(Get(r.value.node, UnpublishedName(slug)).value, env, cs, "unpublished", ["preview"], translationId)
  {
    var slug := Slug(env, cs);
    var draft := CaseStudyNode(env, cs, slug, "draft", [], translationId, now).value;
    var unpublished := CaseStudyNode(env, cs, slug, "unpublished", ["preview"], translationId, now).value;
    var node := HandleNode(cs.title, slug, draft, unpublished);
    assert Get(node, DraftName(slug)).value == draft;
    assert Get(node, UnpublishedName(slug)).value == unpublished;
  }

  // ------------------------------------------------------------------- folder

  /** `get_decorated_migrated_case_studies_folder_object`, with the generated
      translation id as a parameter. */
  function FolderObject(translationId: string): (d: Node)
    ensures Get(d, "jcr:primaryType") == Some(Str("hippostd:folder"))
    ensures Get(d, "jcr:mixinTypes") == Some(Strs(["hippo:named", "hippotranslation:translated", "mix:versionable"]))
    ensures Get(d, "hippo:name") == Some(Str("Migrated Case Studies"))
    ensures Get(d, "hippostd:foldertype") == Some(Strs(["new-caseStudy-folder", "new-caseStudy-document"]))
    ensures Get(d, "hippotranslation:id") == Some(Str(translationId))
    ensures Get(d, "hippotranslation:locale") == Some(Str("en"))
  {
    var d := Put(Empty, "jcr:primaryType", Str("hippostd:folder"));
    var d := Put(d, "jcr:mixinTypes", Strs(["hippo:named", "hippotranslation:translated", "mix:versionable"]));
    var d := Put(d, "hippo:name", Str("Migrated Case Studies"));
    var d := Put(d, "hippostd:foldertype", Strs(["new-caseStudy-folder", "new-caseStudy-document"]));
    var d := Put(d, "hippotranslation:id", Str(translationId));
    Put(d, "hippotranslation:locale", Str("en"))
  }

  /** The folder object lists each of its properties once. */
  lemma FolderObjectValid(translationId: string)
    ensures Valid(FolderObject(translationId))
  {
    var d0 := Put(Empty, "jcr:primaryType", Str("hippostd:folder"));
    PutValid(Empty, "jcr:primaryType", Str("hippostd:folder"));
    var d1 := Put(d0, "jcr:mixinTypes", Strs(["hippo:named", "hippotranslation:translated", "mix:versionable"]));
    PutValid(d0, "jcr:mixinTypes", Strs(["hippo:named", "hippotranslation:translated", "mix:versionable"]));
    var d2 := Put(d1, "hippo:name", Str("Migrated Case Studies"));
    PutValid(d1, "hippo:name", Str("Migrated Case Studies"));
    var d3 := Put(d2, "hippostd:foldertype", Strs(["new-caseStudy-folder", "new-caseStudy-document"]));
    PutValid(d2, "hippostd:foldertype", Strs(["new-caseStudy-folder", "new-caseStudy-document"]));
    var d4 := Put(d3, "hippotranslation:id", Str(translationId));
    PutValid(d3, "hippotranslation:id", Str(translationId));
    PutValid(d4, "hippotranslation:locale", Str("en"));
  }

  /** The name of the handle a slug is filed under. */
  function HandleName(slug: string): (name: string)
    ensures |name| == |slug| + 1 && name[0] == '/' && name[1..] == slug
  {
    "/" + slug
  }

  lemma HandleNameInjective(a: string, b: string)
    ensures HandleName(a) == HandleName(b) ==> a == b
  {
    assert HandleName(a)[1..] == a && HandleName(b)[1..] == b;
  }

  /** Handle names start with `/`; the folder object's property names do not. */
  lemma HandleNameIsNoFolderProperty(slug: string, translationId: string)
    ensures HandleName(slug) !in FolderObject(translationId).names
  {
    var h := HandleName(slug);
    assert h[0] == '/';
    assert h != "jcr:primaryType" && h != "jcr:mixinTypes" && h != "hippo:name";
    assert h != "hippostd:foldertype" && h != "hippotranslation:id" && h != "hippotranslation:locale";
    assert h !in FolderObject(translationId).props;
    FolderObjectValid(translationId);
  }

  /** The `k`-th case study is the first whose document has no MIME type. */
  predicate FirstUnknown(env: Env, studies: seq<Extractor.CaseStudy>, k: int) {
    && 0 <= k < |studies|
    && !HasKnownMimeType(env, studies[k])
    && forall i :: 0 <= i < k ==> HasKnownMimeType(env, studies[i])
  }

  /** The name a case study's handle is assigned under in the folder. */
  function HandleKey(env: Env): Extractor.CaseStudy -> string {
    cs => HandleName(Slug(env, cs))
  }

  /** A case study's handle, given its translation id. */
  function HandleOf(env: Env, now: int): (Extractor.CaseStudy, string) -> Result<Value, DecorationError> {
    (cs, translationId) => HandleFor(env, cs, translationId, now)
  }

  /** The handle name of each case study, in input order. */
  function HandleNames(env: Env, studies: seq<Extractor.CaseStudy>): seq<string> {
    Keys(studies, HandleKey(env))
  }

  /** The migrated-case-studies folder after the loop over `studies`: the
      folder object, then each case study's handle assigned under its handle
      name, so a later case study with the same slug replaces the handle of an
      earlier one in place. The run stops at the first document without a MIME type. */
  function FolderFields(
    env: Env, studies: seq<Extractor.CaseStudy>, translationIds: seq<string>, base: Node, now: int)
    : (r: Result<Node, DecorationError>)
    requires |translationIds| == |studies|
    ensures r.Success? ==> |r.value.names| <= |base.names| + |studies|
  {
    AssignAll(base, studies, translationIds, HandleKey(env), HandleOf(env, now))
  }

  /** A run succeeds exactly when every document's extension has a MIME type. */
  lemma FolderSucceeds(
    env: Env, studies: seq<Extractor.CaseStudy>, translationIds: seq<string>, base: Node, now: int)
    requires |translationIds| == |studies|
    ensures FolderFields(env, studies, translationIds, base, now).Success?
        <==> forall i :: 0 <= i < |studies| ==> HasKnownMimeType(env, studies[i])
  {
    var value := HandleOf(env, now);
    assert forall i :: 0 <= i < |studies| ==>
      (value(studies[i], translationIds[i]).Success? <==> HasKnownMimeType(env, studies[i]));
    AssignAllSucceeds(base, studies, translationIds, HandleKey(env), value);
  }

  /** A run fails exactly at the first case study without a MIME type, with
      that study's error. */
  lemma FolderFirstError(
    env: Env, studies: seq<Extractor.CaseStudy>, translationIds: seq<string>, base: Node, now: int,
    k: int)
    requires |translationIds| == |studies|
    requires FirstUnknown(env, studies, k)
    ensures FolderFields(env, studies, translationIds, base, now) == Failure(MimeError(studies[k]))
  {
    var value := HandleOf(env, now);
    assert forall i :: 0 <= i < k ==> value(studies[i], translationIds[i]).Success?;
    AssignAllFirstFailure(base, studies, translationIds, HandleKey(env), value, k);
  }

  /** The folder lists each name once: its own properties, then one handle per
      distinct slug, in the order the slugs first appear. */
  lemma FolderNames(
    env: Env, studies: seq<Extractor.CaseStudy>, translationIds: seq<string>, folderId: string, now: int)
    requires |translationIds| == |studies|
    requires FolderFields(env, studies, translationIds, FolderObject(folderId), now).Success?
    ensures var folder := FolderFields(env, studies, translationIds, FolderObject(folderId), now).value;
      && Valid(folder)
      && folder.names == FolderObject(folderId).names + FirstAppearances(HandleNames(env, studies))
  {
    var key := HandleKey(env);
    FolderObjectValid(folderId);
    forall i | 0 <= i < |studies| ensures key(studies[i]) !in FolderObject(folderId).names {
      HandleNameIsNoFolderProperty(Slug(env, studies[i]), folderId);
    }
    AssignAllNames(FolderObject(folderId), studies, translationIds, key, HandleOf(env, now));
  }

  /** The folder object's own properties are never overwritten by a handle. */
  lemma FolderKeepsProperties(
    env: Env, studies: seq<Extractor.CaseStudy>, translationIds: seq<string>, folderId: string, now: int,
    name: string)
    requires |translationIds| == |studies|
    requires FolderFields(env, studies, translationIds, FolderObject(folderId), now).Success?
    requires name in FolderObject(folderId).names
    ensures Get(FolderFields(env, studies, translationIds, FolderObject(folderId), now).value, name)
         == Get(FolderObject(folderId), name)
  {
    var key := HandleKey(env);
    forall i | 0 <= i < |studies| ensures key(studies[i]) != name {
      HandleNameIsNoFolderProperty(Slug(env, studies[i]), folderId);
    }
    AssignAllKeeps(FolderObject(folderId), studies, translationIds, key, HandleOf(env, now), name);
  }

  /** Handles are assigned by slug, so the last case study with a slug owns it:
      its handle is the one the folder holds. */
  lemma FolderHandle(
    env: Env, studies: seq<Extractor.CaseStudy>, translationIds: seq<string>, base: Node, now: int,
    i: int)
    requires |translationIds| == |studies|
    requires FolderFields(env, studies, translationIds, base, now).Success?
    requires 0 <= i < |studies|
    requires forall j :: i < j < |studies| ==> Slug(env, studies[j]) != Slug(env, studies[i])
    ensures var handle := HandleFor(env, studies[i], translationIds[i], now);
      && handle.Success?
      && Get(FolderFields(env, studies, translationIds, base, now).value, HandleName(Slug(env, studies[i])))
         == Some(handle.value)
  {
    var key := HandleKey(env);
    forall j | i < j < |studies| ensures key(studies[j]) != key(studies[i]) {
      HandleNameInjective(Slug(env, studies[j]), Slug(env, studies[i]));
    }
    AssignAllLastWins(base, studies, translationIds, key, HandleOf(env, now), i);
  }

  /** One more round of the loop assigns the next case study's handle under its
      handle name. */
  lemma FolderStep(
    env: Env, studies: seq<Extractor.CaseStudy>, translationIds: seq<string>, base: Node, now: int,
    i: nat)
    requires |translationIds| == |studies| && i < |studies|
    requires FolderFields(env, studies[..i], translationIds[..i], base, now).Success?
    requires HasKnownMimeType(env, studies[i])
    ensures FolderFields(env, studies[..i + 1], translationIds[..i + 1], base, now)
         == Success(Put(FolderFields(env, studies[..i], translationIds[..i], base, now).value,
                        HandleName(Slug(env, studies[i])), HandleFor(env, studies[i], translationIds[i], now).value))
  {
    AssignAllStep(base, studies, translationIds, HandleKey(env), HandleOf(env, now), i);
  }

  /** A run whose first `i` rounds succeed fails in round `i` when that case
      study's document has no MIME type, with that document's error. */
  lemma FolderStopsAt(
    env: Env, studies: seq<Extractor.CaseStudy>, translationIds: seq<string>, base: Node, now: int,
    i: nat)
    requires |translationIds| == |studies| && i < |studies|
    requires FolderFields(env, studies[..i], translationIds[..i], base, now).Success?
    requires !HasKnownMimeType(env, studies[i])
    ensures FolderFields(env, studies, translationIds, base, now) == Failure(MimeError(studies[i]))
  {
    FolderSucceeds(env, studies[..i], translationIds[..i], base, now);
    assert forall j :: 0 <= j < i ==> studies[..i][j] == studies[j];
    FolderFirstError(env, studies, translationIds, base, now, i);
  }

  /** A successful handle holds the handle object with the two versions
      assigned after it. */
  lemma HandleForParts(env: Env, cs: Extractor.CaseStudy, translationId: string, now: int)
    requires HasKnownMimeType(env, cs)
    ensures var slug := Slug(env, cs);
      var draft := CaseStudyNode(env, cs, slug, "draft", [], translationId, now);
      var unpublished := CaseStudyNode(env, cs, slug, "unpublished", ["preview"], translationId, now);
      && draft.Success? && unpublished.Success?
      && HandleFor(env, cs, translationId, now)
         == Success(Dict(Put(Put(DocumentHandle(cs.title), DraftName(slug), draft.value), UnpublishedName(slug), unpublished.value)))
  {
  }

  /** One round of the loop: assigning the handle object and then its two
      versions through the folder amounts to assigning the finished handle. */
  lemma RoundAssigns(
    folder: Node, handleName: string, handle: Node,
    draftName: string, draft: Value, unpublishedName: string, unpublished: Value)
    ensures var root := Put(Empty, FolderNodeName, Dict(folder));
      var withHandle := PutPath(root, [FolderNodeName], handleName, Dict(handle));
      && Resolves(withHandle, [FolderNodeName, handleName])
      && var withDraft := PutPath(withHandle, [FolderNodeName, handleName], draftName, draft);
      && Resolves(withDraft, [FolderNodeName, handleName])
      && PutPath(withDraft, [FolderNodeName, handleName], unpublishedName, unpublished)
         == Put(Empty, FolderNodeName,
              Dict(Put(folder, handleName, Dict(Put(Put(handle, draftName, draft), unpublishedName, unpublished)))))
  {
    var root := Put(Empty, FolderNodeName, Dict(folder));
    PutResolves(Empty, FolderNodeName, folder);
    var withDraftHandle := Put(handle, draftName, draft);
    PutNested(root, FolderNodeName, handleName, handle, draftName, draft);
    var withDraft := PutPath(root, [FolderNodeName], handleName, Dict(withDraftHandle));
    assert Resolves(withDraft, [FolderNodeName]) by {
      assert Get(withDraft, FolderNodeName).Some?;
      assert [FolderNodeName][1..] == [];
    }
    PutNested(root, FolderNodeName, handleName, withDraftHandle, unpublishedName, unpublished);
    var full := Put(withDraftHandle, unpublishedName, unpublished);
    assert PutPath(folder, [], handleName, Dict(full)) == Put(folder, handleName, Dict(full));
    assert [FolderNodeName][1..] == [];
    PutTwice(Empty, FolderNodeName, Dict(folder), Dict(Put(folder, handleName, Dict(full))));
  }

  /** The body of the loop over the case studies: the handle object, then the
      draft and the unpublished version, each assigned through the folder node.
      It fails, as the lookup of the MIME type does, when the document's
      extension has none. */
  method DecorateCaseStudy(
    env: Env, caseStudy: Extractor.CaseStudy, translationId: string, now: int, root: Node, ghost folder: Node)
    returns (r: Result<Node, DecorationError>)
    requires root == Put(Empty, FolderNodeName, Dict(folder))
    ensures r.Success? <==> HasKnownMimeType(env, caseStudy)
    ensures r.Failure? ==> r.error == MimeError(caseStudy)
    ensures r.Success? ==>
      r.value == Put(Empty, FolderNodeName,
        Dict(Put(folder, HandleName(Slug(env, caseStudy)), HandleFor(env, caseStudy, translationId, now).value)))
  {
    var slug := NodeName(env.asciiFold, caseStudy.title);
    var handleName := "/" + slug;
    PutResolves(Empty, FolderNodeName, folder);
    var node := PutPath(root, [FolderNodeName], handleName, Dict(DocumentHandle(caseStudy.title)));
    var draft := CaseStudyNode(env, caseStudy, slug, "draft", [], translationId, now);
    if draft.Failure? {
      return Failure(draft.error);
    }
    var unpublished := CaseStudyNode(env, caseStudy, slug, "unpublished", ["preview"], translationId, now);
    RoundAssigns(folder, handleName, DocumentHandle(caseStudy.title),
      DraftName(slug), draft.value, UnpublishedName(slug), unpublished.value);
    node := PutPath(node, [FolderNodeName, handleName], handleName + "[1]", draft.value);
    node := PutPath(node, [FolderNodeName, handleName], handleName + "[2]", unpublished.value);
    HandleForParts(env, caseStudy, translationId, now);
    r := Success(node);
  }

  /** Round `i` of the loop of `get_decorated_migrated_case_studies_folder`:
      given the folder node after the first `i` rounds, the folder node after
      round `i`, or the error that ends the whole run there. */
  method FolderRound(
    env: Env, studies: seq<Extractor.CaseStudy>, translationIds: seq<string>, base: Node, now: int,
    i: nat, root: Node)
    returns (next: Result<Node, DecorationError>)
    requires |translationIds| == |studies| && i < |studies|
    requires FolderFields(env, studies[..i], translationIds[..i], base, now).Success?
    requires root == Put(Empty, FolderNodeName, Dict(FolderFields(env, studies[..i], translationIds[..i], base, now).value))
    ensures next.Success? ==>
      && FolderFields(env, studies[..i + 1], translationIds[..i + 1], base, now).Success?
      && next.value == Put(Empty, FolderNodeName, Dict(FolderFields(env, studies[..i + 1], translationIds[..i + 1], base, now).value))
    ensures next.Failure? ==> FolderFields(env, studies, translationIds, base, now) == Failure(next.error)
  {
    ghost var folder := FolderFields(env, studies[..i], translationIds[..i], base, now).value;
    next := DecorateCaseStudy(env, studies[i], translationIds[i], now, root, folder);
    if next.Failure? {
      FolderStopsAt(env, studies, translationIds, base, now, i);
    } else {
      FolderStep(env, studies, translationIds, base, now, i);
    }
  }

  /** The loop of `get_decorated_migrated_case_studies_folder`: starting from
      the folder node holding `base`, each case study's round in input order,
      stopping at the first that fails. */
  method DecorateEach(
    env: Env, studies: seq<Extractor.CaseStudy>, translationIds: seq<string>, base: Node, now: int)
    returns (r: Result<Node, DecorationError>)
    requires |translationIds| == |studies|
    ensures var folder := FolderFields(env, studies, translationIds, base, now);
      && (r.Success? <==> folder.Success?)
      && (r.Success? ==> r.value == Put(Empty, FolderNodeName, Dict(folder.value)))
      && (r.Failure? ==> r.error == folder.error)
  {
    var root := Put(Empty, FolderNodeName, Dict(base));
    assert studies[..0] == [] && translationIds[..0] == [];
    var i := 0;
    while i < |studies|
      invariant 0 <= i <= |studies|
      invariant FolderFields(env, studies[..i], translationIds[..i], base, now).Success?
      invariant root == Put(Empty, FolderNodeName, Dict(FolderFields(env, studies[..i], translationIds[..i], base, now).value))
    {
      var next := FolderRound(env, studies, translationIds, base, now, i, root);
      if next.Failure? {
        return Failure(next.error);
      }
      root := next.value;
      i := i + 1;
    }
    assert studies[..i] == studies && translationIds[..i] == translationIds;
    r := Success(root);
  }

  /** `get_decorated_migrated_case_studies_folder`: the migrated-case-studies
      folder node holding the folder object and one handle per case study,
      built by assignment in input order, or the error of the first document
      without a MIME type. The generated identifiers and the clock are parameters. */
  method DecorateFolder(
    env: Env, studies: seq<Extractor.CaseStudy>, folderId: string, translationIds: seq<string>, now: int)
    returns (r: Result<Node, DecorationError>)
    requires |translationIds| == |studies|
    ensures var folder := FolderFields(env, studies, translationIds, FolderObject(folderId), now);
      && (r.Success? <==> folder.Success?)
      && (r.Success? ==> r.value == Put(Empty, FolderNodeName, Dict(folder.value)))
      && (r.Failure? ==> r.error == folder.error)
  {
    r := DecorateEach(env, studies, translationIds, FolderObject(folderId), now);
  }
}

=== FILE: extractor.dfy ===
/** The vocabulary extractor of the migration: it reads the exported rows,
    collects the four controlled vocabularies (regions, sectors, impact groups,
    impact types), keys every vocabulary value, and rewrites each case study
    to refer to keys instead of raw strings. */
module CaseStudyExtractor {
  import opened Wrappers
  import opened Text

  /** One case study as the extractor's list of dicts holds it. Before
      redecoration the four vocabulary fields hold raw values; afterwards keys. */
  datatype CaseStudy = CaseStudy(
    title: string,
    region: string,
    sector: string,
    impactGroup: string,
    impactTypes: seq<string>,
    documentUrl: string)

  /** One item of a sorted key -> display-value dictionary. */
  datatype Entry = Entry(key: string, display: string)

  /** A sorted dictionary, as the sequence of its items in iteration order. */
  type Vocabulary = seq<Entry>

  datatype Vocabularies = Vocabularies(
    regions: Vocabulary,
    sectors: Vocabulary,
    impactGroups: Vocabulary,
    impactTypes: Vocabulary)

  /** The singular fields whose lookup can fail. */
  datatype VocabularyField = Region | Sector | ImpactGroup

  /** The ways extraction aborts: a row too short to index (row counts the header
      as row 0), or a case study whose singular field matches no vocabulary value. */
  datatype ExtractionError = MalformedRow(row: nat) | NoMatch(study: nat, field: VocabularyField)

  datatype Extraction = Extraction(studies: seq<CaseStudy>, vocabularies: Vocabularies)

  // ---------------------------------------------------------------------------
  // Document URL clean-up

  /** `get_cleaned_up_url`: drops one trailing ", " separator left over by the export. */
  function CleanUpUrl(url: string): (r: string)
    ensures EndsWith(url, ", ") ==> r + ", " == url
    ensures !EndsWith(url, ", ") ==> r == url
  {
    if EndsWith(url, ", ") then url[..|url| - 2] else url
  }

  // ---------------------------------------------------------------------------
  // Vocabulary keys

  /** The characters `[A-Za-z0-9 _-]` that survive the first substitution of the key derivation. */
  predicate IsKeySourceChar(c: char) {
    IsAsciiLetter(c) || IsDigit(c) || c == ' ' || c == '_' || c == '-'
  }

  /** The alphabet of vocabulary keys, `[a-z0-9_-]`. */
  predicate IsKeyChar(c: char) {
    ('a' <= c <= 'z') || IsDigit(c) || c == '_' || c == '-'
  }

  /** The key `get_dict` files a value under: characters outside `[A-Za-z0-9 _-]`
      stripped, whitespace runs turned into `_`, then lower-cased. */
  function Key(value: string): (k: string)
    ensures forall i :: 0 <= i < |k| ==> IsKeyChar(k[i])
    ensures NoSpace(k)
  {
    var kept := Filter(value, IsKeySourceChar);
    var collapsed := CollapseSpace(kept);
    assert forall i :: 0 <= i < |collapsed| ==> collapsed[i] == '_' || IsKeySourceChar(collapsed[i]);
    Lower(collapsed)
  }

  /** The values `f` takes on `s`. */
  function Image(s: set<string>, f: string -> string): set<string> {
    set e | e in s :: f(e)
  }

  /** No two elements of `s` share an image under `f`. */
  ghost predicate InjectiveOn(s: set<string>, f: string -> string) {
    forall a, b :: a in s && b in s && f(a) == f(b) ==> a == b
  }

  /** The keys of the values of `s`. */
  function KeyImage(s: set<string>): set<string> {
    Image(s, Key)
  }

  ghost predicate KeyInjectiveOn(s: set<string>) {
    InjectiveOn(s, Key)
  }

  // ---------------------------------------------------------------------------
  // Sorted dictionaries

  function KeysOf(v: Vocabulary): set<string> {
    set e | e in v :: e.key
  }

  /** Iteration order of a sorted dictionary: keys strictly ascending. */
  predicate StrictlySorted(v: Vocabulary) {
    forall i, j :: 0 <= i < j < |v| ==> Less(v[i].key, v[j].key)
  }

  /** `v` is a dictionary `get_dict(s)` can return: sorted, keyed by exactly the keys
      of the values of `s`, and every stored value is an element of `s` filed under
      its own key. Which element a shared key keeps depends on the set's iteration
      order (the last one written wins), so it is left open here. */
  ghost predicate IsVocabularyOf(v: Vocabulary, s: set<string>) {
    && StrictlySorted(v)
    && KeysOf(v) == KeyImage(s)
    && forall i :: 0 <= i < |v| ==> v[i].display in s && Key(v[i].display) == v[i].key
  }

  /** An entry whose key is below every key of a sorted dictionary can go in front. */
  lemma ConsSorted(x: Entry, rest: Vocabulary)
    requires StrictlySorted(rest)
    requires forall i :: 0 <= i < |rest| ==> Less(x.key, rest[i].key)
    ensures StrictlySorted([x] + rest)
  {
    var r := [x] + rest;
    forall i, j | 0 <= i < j < |r| ensures Less(r[i].key, r[j].key) {
      assert r[j] == rest[j - 1];
      if i > 0 {
        assert r[i] == rest[i - 1];
      }
    }
  }

  /** Inserting a new item into a sorted dictionary keeps it sorted. */
  function Insert(v: Vocabulary, e: Entry): (r: Vocabulary)
    requires StrictlySorted(v)
    requires e.key !in KeysOf(v)
    ensures StrictlySorted(r)
    ensures |r| == |v| + 1
    ensures KeysOf(r) == KeysOf(v) + {e.key}
    ensures forall x :: x in r <==> x in v || x == e
  {
    if v == [] then [e]
    else if Less(e.key, v[0].key) then
      assert forall i :: 0 <= i < |v| ==> Less(e.key, v[i].key) by {
        forall i | 0 < i < |v| ensures Less(e.key, v[i].key) {
          LessTransitive(e.key, v[0].key, v[i].key);
        }
      }
      ConsSorted(e, v);
      assert forall x :: x in [e] + v <==> x in v || x == e;
      [e] + v
    else
      assert v[0].key != e.key by { assert v[0].key in KeysOf(v); }
      LessTotal(e.key, v[0].key);
      var rest := Insert(v[1..], e);
      assert KeysOf(v[1..]) <= KeysOf(v);
      assert forall x :: x in v <==> x == v[0] || x in v[1..];
      assert forall x :: x in [v[0]] + rest <==> x == v[0] || x in rest;
      assert forall i :: 0 <= i < |rest| ==> Less(v[0].key, rest[i].key) by {
        forall i | 0 <= i < |rest| ensures Less(v[0].key, rest[i].key) {
          assert rest[i] in rest;
          if rest[i] != e {
            var j :| 0 <= j < |v[1..]| && v[1..][j] == rest[i];
            assert v[j + 1] == rest[i];
          }
        }
      }
      ConsSorted(v[0], rest);
      [v[0]] + rest
  }

  /** `SortedDict(d)`: the items of `d`, in ascending key order. */
  method SortedDict(d: map<string, string>) returns (v: Vocabulary)
    ensures StrictlySorted(v)
    ensures KeysOf(v) == d.Keys
    ensures forall i :: 0 <= i < |v| ==> v[i].key in d && v[i].display == d[v[i].key]
  {
    v := [];
    var rest := d.Keys;
    while rest != {}
      invariant rest <= d.Keys
      invariant StrictlySorted(v)
      invariant KeysOf(v) == d.Keys - rest
      invariant forall i :: 0 <= i < |v| ==> v[i].key in d && v[i].display == d[v[i].key]
      decreases rest
    {
      var k :| k in rest;
      var old_v := v;
      v := Insert(v, Entry(k, d[k]));
      forall i | 0 <= i < |v| ensures v[i].key in d && v[i].display == d[v[i].key] {
        assert v[i] in v;
        if v[i] != Entry(k, d[k]) {
          var j :| 0 <= j < |old_v| && old_v[j] == v[i];
        }
      }
      rest := rest - {k};
    }
  }

  /** `get_dict`: keys every value of `s` (a set, iterated in no particular order,
      a later value overwriting an earlier one with the same key) and returns the
      dictionary sorted by key. */
  method GetDict(s: set<string>) returns (v: Vocabulary)
    ensures IsVocabularyOf(v, s)
  {
    var d: map<string, string> := map[];
    var rest := s;
    while rest != {}
      invariant rest <= s
      invariant d.Keys == KeyImage(s - rest)
      invariant forall k :: k in d ==> d[k] in s && Key(d[k]) == k
      decreases rest
    {
      var e :| e in rest;
      d := d[Key(e) := e];
      rest := rest - {e};
    }
    v := SortedDict(d);
  }

  lemma {:induction false} SortedKeysDistinct(v: Vocabulary)
    requires StrictlySorted(v)
    ensures |KeysOf(v)| == |v|
  {
    if v != [] {
      SortedKeysDistinct(v[1..]);
      assert KeysOf(v) == {v[0].key} + KeysOf(v[1..]) by {
        assert forall i :: 0 < i < |v| ==> v[i] == v[1..][i - 1];
      }
      assert v[0].key !in KeysOf(v[1..]) by {
        forall j | 0 <= j < |v[1..]| ensures v[1..][j].key != v[0].key {
          assert v[1..][j] == v[j + 1] && Less(v[0].key, v[j + 1].key);
        }
      }
    }
  }

  lemma ImageAdd(s: set<string>, f: string -> string, x: string)
    ensures Image(s + {x}, f) == Image(s, f) + {f(x)}
  {
  }

  /** A function never has more values on a set than the set has elements, and
      has exactly as many when it is injective there. */
  lemma {:induction false} ImageSize(s: set<string>, f: string -> string)
    ensures |Image(s, f)| <= |s|
    ensures |Image(s, f)| == |s| <==> InjectiveOn(s, f)
    decreases |s|
  {
    if s == {} {
      assert Image(s, f) == {};
    } else {
      var x :| x in s;
      var s' := s - {x};
      ImageSize(s', f);
      assert s == s' + {x} && |s| == |s'| + 1;
      ImageAdd(s', f, x);
      if f(x) in Image(s', f) {
        assert Image(s, f) == Image(s', f);
        var y :| y in s' && f(y) == f(x);
        assert !InjectiveOn(s, f) by {
          assert y in s && x in s && y != x;
        }
      } else {
        assert |Image(s, f)| == |Image(s', f)| + 1;
        InjectiveExtend(s', f, x);
      }
    }
  }

  lemma InjectiveExtend(s: set<string>, f: string -> string, x: string)
    requires x !in s && f(x) !in Image(s, f)
    ensures InjectiveOn(s + {x}, f) <==> InjectiveOn(s, f)
  {
    if InjectiveOn(s, f) {
      forall a, b | a in s + {x} && b in s + {x} && f(a) == f(b) ensures a == b {
      }
    }
  }

  /** A vocabulary never has more entries than the values it was built from,
      and has exactly as many when no two values share a key. */
  lemma VocabularySize(v: Vocabulary, s: set<string>)
    requires IsVocabularyOf(v, s)
    ensures |v| <= |s|
    ensures |v| == |s| <==> KeyInjectiveOn(s)
  {
    SortedKeysDistinct(v);
    ImageSize(s, Key);
  }

  /** When no two values share a key, nothing is lost: every value of `s` sits
      under its own key. */
  lemma {:induction false} VocabularyKeepsEveryValue(v: Vocabulary, s: set<string>, e: string)
    requires IsVocabularyOf(v, s) && KeyInjectiveOn(s)
    requires e in s
    ensures exists i :: 0 <= i < |v| && v[i] == Entry(Key(e), e)
  {
    assert Key(e) in KeyImage(s);
    var i :| 0 <= i < |v| && v[i].key == Key(e);
    assert v[i].display in s && Key(v[i].display) == Key(e);
  }

  // ---------------------------------------------------------------------------
  // Redecoration

  /** What a vocabulary value is tested against: the raw field it must be a
      substring of (`v in case_study['region']` on a string), or the token list
      it must be an element of (`v in case_study['impact_types']` on a list). */
  datatype Matcher = Substring(raw: string) | Member(tokens: seq<string>)

  predicate Accepts(m: Matcher, display: string) {
    match m
    case Substring(raw) => Contains(raw, display)
    case Member(tokens) => display in tokens
  }

  /** `[k for k, v in vocabulary.items() if <v accepted>]`, in iteration order. */
  function MatchingKeys(v: Vocabulary, m: Matcher): (keys: seq<string>)
    ensures forall k :: k in keys <==> exists i :: 0 <= i < |v| && v[i].key == k && Accepts(m, v[i].display)
    ensures StrictlySorted(v) ==> Ascending(keys)
  {
    if v == [] then []
    else
      var rest := MatchingKeys(v[1..], m);
      assert forall i :: 0 < i < |v| ==> v[i] == v[1..][i - 1];
      if Accepts(m, v[0].display) then
        assert StrictlySorted(v) ==> Ascending([v[0].key] + rest) by {
          if StrictlySorted(v) {
            forall j | 0 <= j < |rest| ensures Less(v[0].key, rest[j]) {
              assert rest[j] in rest;
              var i :| 0 <= i < |v[1..]| && v[1..][i].key == rest[j] && Accepts(m, v[1..][i].display);
              assert v[i + 1].key == rest[j];
            }
            var r := [v[0].key] + rest;
            forall a, b | 0 <= a < b < |r| ensures Less(r[a], r[b]) {
              assert r[b] == rest[b - 1];
              if a > 0 {
                assert r[a] == rest[a - 1];
              }
            }
          }
        }
        [v[0].key] + rest
      else
        rest
  }

  /** `k` is the first key, in iteration order, whose display value is a substring of `raw`. */
  ghost predicate IsFirstMatch(v: Vocabulary, raw: string, k: string) {
    && (exists i :: 0 <= i < |v| && v[i].key == k && Contains(raw, v[i].display))
    && forall i :: 0 <= i < |v| && Contains(raw, v[i].display) ==> v[i].key == k || Less(k, v[i].key)
  }

  ghost predicate HasMatch(v: Vocabulary, raw: string) {
    exists i :: 0 <= i < |v| && Contains(raw, v[i].display)
  }

  lemma FirstMatchIsLeast(v: Vocabulary, raw: string)
    requires StrictlySorted(v)
    ensures MatchingKeys(v, Substring(raw)) == [] <==> !HasMatch(v, raw)
    ensures MatchingKeys(v, Substring(raw)) != [] ==> IsFirstMatch(v, raw, MatchingKeys(v, Substring(raw))[0])
  {
    var keys := MatchingKeys(v, Substring(raw));
    if HasMatch(v, raw) {
      var i :| 0 <= i < |v| && Contains(raw, v[i].display);
      assert Accepts(Substring(raw), v[i].display);
      assert v[i].key in keys;
    }
    if keys != [] {
      assert keys[0] in keys;
      forall i | 0 <= i < |v| && Contains(raw, v[i].display) ensures v[i].key == keys[0] || Less(keys[0], v[i].key) {
        assert Accepts(Substring(raw), v[i].display);
        assert v[i].key in keys;
        var j :| 0 <= j < |keys| && keys[j] == v[i].key;
      }
    }
  }

  /** The rewrite of one case study: region, sector and impact group become the
      first matching key; impact types become every key whose display value is
      one of the tokens. A singular field without a match aborts the run. */
  function Redecorated(cs: CaseStudy, vs: Vocabularies): (r: Result<CaseStudy, VocabularyField>)
    ensures r.Success? ==> r.value.title == cs.title && r.value.documentUrl == cs.documentUrl
  {
    var regions := MatchingKeys(vs.regions, Substring(cs.region));
    var sectors := MatchingKeys(vs.sectors, Substring(cs.sector));
    var groups := MatchingKeys(vs.impactGroups, Substring(cs.impactGroup));
    if regions == [] then Failure(Region)
    else if sectors == [] then Failure(Sector)
    else if groups == [] then Failure(ImpactGroup)
    else Success(cs.(
      region := regions[0],
      sector := sectors[0],
      impactGroup := groups[0],
      impactTypes := MatchingKeys(vs.impactTypes, Member(cs.impactTypes))))
  }

  predicate SortedVocabularies(vs: Vocabularies) {
    StrictlySorted(vs.regions) && StrictlySorted(vs.sectors)
    && StrictlySorted(vs.impactGroups) && StrictlySorted(vs.impactTypes)
  }

  /** What the rewrite of one case study promises. */
  lemma RedecoratedSpec(cs: CaseStudy, vs: Vocabularies)
    requires SortedVocabularies(vs)
    ensures var r := Redecorated(cs, vs);
      && (r.Success? <==> HasMatch(vs.regions, cs.region) && HasMatch(vs.sectors, cs.sector)
                          && HasMatch(vs.impactGroups, cs.impactGroup))
      && (r.Failure? ==> r.error == (if !HasMatch(vs.regions, cs.region) then Region
                                     else if !HasMatch(vs.sectors, cs.sector) then Sector
                                     else ImpactGroup))
      && (r.Success? ==>
            && IsFirstMatch(vs.regions, cs.region, r.value.region)
            && IsFirstMatch(vs.sectors, cs.sector, r.value.sector)
            && IsFirstMatch(vs.impactGroups, cs.impactGroup, r.value.impactGroup)
            && Ascending(r.value.impactTypes)
            && (forall k :: k in r.value.impactTypes <==>
                  exists i :: 0 <= i < |vs.impactTypes| && vs.impactTypes[i].key == k
                              && vs.impactTypes[i].display in cs.impactTypes)
            && r.value.title == cs.title
            && r.value.documentUrl == cs.documentUrl)
  {
    FirstMatchIsLeast(vs.regions, cs.region);
    FirstMatchIsLeast(vs.sectors, cs.sector);
    FirstMatchIsLeast(vs.impactGroups, cs.impactGroup);
  }

  /** Without key collisions a case study whose raw values were collected into the
      vocabularies always finds a match, and its impact types become exactly the
      keys of its tokens. */
  lemma RedecoratedWithoutCollisions(cs: CaseStudy, vs: Vocabularies, regions: set<string>,
                                     sectors: set<string>, groups: set<string>, types: set<string>)
    requires IsVocabularyOf(vs.regions, regions) && KeyInjectiveOn(regions) && cs.region in regions
    requires IsVocabularyOf(vs.sectors, sectors) && KeyInjectiveOn(sectors) && cs.sector in sectors
    requires IsVocabularyOf(vs.impactGroups, groups) && KeyInjectiveOn(groups) && cs.impactGroup in groups
    requires IsVocabularyOf(vs.impactTypes, types) && KeyInjectiveOn(types)
    requires forall t :: t in cs.impactTypes ==> t in types
    ensures Redecorated(cs, vs).Success?
    ensures forall k :: k in Redecorated(cs, vs).value.impactTypes <==> exists t :: t in cs.impactTypes && k == Key(t)
  {
    SingularMatches(vs.regions, regions, cs.region);
    SingularMatches(vs.sectors, sectors, cs.sector);
    SingularMatches(vs.impactGroups, groups, cs.impactGroup);
    var keys := MatchingKeys(vs.impactTypes, Member(cs.impactTypes));
    forall k ensures k in keys <==> exists t :: t in cs.impactTypes && k == Key(t) {
      if k in keys {
        var i :| 0 <= i < |vs.impactTypes| && vs.impactTypes[i].key == k && vs.impactTypes[i].display in cs.impactTypes;
        assert Key(vs.impactTypes[i].display) == k;
      }
      if exists t :: t in cs.impactTypes && k == Key(t) {
        var t :| t in cs.impactTypes && k == Key(t);
        VocabularyKeepsEveryValue(vs.impactTypes, types, t);
        var i :| 0 <= i < |vs.impactTypes| && vs.impactTypes[i] == Entry(Key(t), t);
        assert Accepts(Member(cs.impactTypes), vs.impactTypes[i].display);
      }
    }
  }

  lemma SingularMatches(v: Vocabulary, s: set<string>, raw: string)
    requires IsVocabularyOf(v, s) && KeyInjectiveOn(s) && raw in s
    ensures MatchingKeys(v, Substring(raw)) != []
  {
    VocabularyKeepsEveryValue(v, s, raw);
    var i :| 0 <= i < |v| && v[i] == Entry(Key(raw), raw);
    ContainsItself(raw);
    assert Accepts(Substring(raw), v[i].display);
    assert v[i].key in MatchingKeys(v, Substring(raw));
  }

  /** `redecorate_case_studies`: rewrites the case studies in place, one field at a
      time; the first singular field without a match aborts the loop, leaving the
      studies before it rewritten and the ones after it untouched. */
  method Redecorate(studies: array<CaseStudy>, vs: Vocabularies) returns (outcome: Outcome<ExtractionError>)
    modifies studies
    ensures outcome.Pass? <==> forall i :: 0 <= i < studies.Length ==> Redecorated(old(studies[i]), vs).Success?
    ensures outcome.Pass? ==>
      forall i :: 0 <= i < studies.Length ==> Redecorated(old(studies[i]), vs) == Success(studies[i])
    ensures outcome.Fail? ==>
      && outcome.error.NoMatch?
      && var k := outcome.error.study;
      && k < studies.Length
      && Redecorated(old(studies[k]), vs) == Failure(outcome.error.field)
      && (forall i :: 0 <= i < k ==> Redecorated(old(studies[i]), vs) == Success(studies[i]))
      && (forall i :: k < i < studies.Length ==> studies[i] == old(studies[i]))
  {
    var i := 0;
    while i < studies.Length
      invariant 0 <= i <= studies.Length
      invariant forall k :: 0 <= k < i ==> Redecorated(old(studies[k]), vs) == Success(studies[k])
      invariant forall k :: i <= k < studies.Length ==> studies[k] == old(studies[k])
    {
      ghost var before := studies[..];
      var cs := studies[i];
      var regions := MatchingKeys(vs.regions, Substring(cs.region));
      if regions == [] {
        return Fail(NoMatch(i, Region));
      }
      studies[i] := studies[i].(region := regions[0]);
      var sectors := MatchingKeys(vs.sectors, Substring(cs.sector));
      if sectors == [] {
        return Fail(NoMatch(i, Sector));
      }
      studies[i] := studies[i].(sector := sectors[0]);
      var groups := MatchingKeys(vs.impactGroups, Substring(cs.impactGroup));
      if groups == [] {
        return Fail(NoMatch(i, ImpactGroup));
      }
      studies[i] := studies[i].(impactGroup := groups[0]);
      studies[i] := studies[i].(impactTypes := MatchingKeys(vs.impactTypes, Member(cs.impactTypes)));
      assert Redecorated(old(studies[i]), vs) == Success(studies[i]);
      assert forall k :: 0 <= k < studies.Length && k != i ==> studies[k] == before[k];
      i := i + 1;
    }
    return Pass;
  }

  // ---------------------------------------------------------------------------
  // Extraction

  /** `[category.strip() for category in cell.split(',')]`. */
  function ImpactTypeTokens(cell: string): (tokens: seq<string>)
    ensures |tokens| == |Split(cell, ',')|
    ensures forall i :: 0 <= i < |tokens| ==> tokens[i] == Strip(Split(cell, ',')[i])
    ensures forall i :: 0 <= i < |tokens| ==> ',' !in tokens[i]
    ensures forall i :: 0 <= i < |tokens| && tokens[i] != [] ==>
      !IsSpace(tokens[i][0]) && !IsSpace(tokens[i][|tokens[i]| - 1])
  {
    var parts := Split(cell, ',');
    seq(|parts|, i requires 0 <= i < |parts| => Strip(parts[i]))
  }

  /** Every row after the header can be indexed up to column 5. */
  predicate WellFormed(rows: seq<seq<string>>) {
    forall i :: 1 <= i < |rows| ==> |rows[i]| >= 6
  }

  /** The case study built from one row, before redecoration. */
  function ParseRow(row: seq<string>): (cs: CaseStudy)
    requires |row| >= 6
    ensures cs.title == row[0] && cs.region == row[1] && cs.sector == row[2] && cs.impactGroup == row[3]
    ensures |cs.impactTypes| == |Split(row[4], ',')|
    ensures forall i :: 0 <= i < |cs.impactTypes| ==> cs.impactTypes[i] == Strip(Split(row[4], ',')[i])
    ensures cs.documentUrl <= row[5] && (|cs.documentUrl| == |row[5]| || |cs.documentUrl| + 2 == |row[5]|)
    ensures EndsWith(row[5], ", ") ==> cs.documentUrl + ", " == row[5]
    ensures !EndsWith(row[5], ", ") ==> cs.documentUrl == row[5]
  {
    CaseStudy(row[0], row[1], row[2], row[3], ImpactTypeTokens(row[4]), CleanUpUrl(row[5]))
  }

  /** `data[1:]`: the rows after the header. */
  function DataRows(rows: seq<seq<string>>): (body: seq<seq<string>>)
    ensures |body| == if rows == [] then 0 else |rows| - 1
    ensures forall i :: 0 <= i < |body| ==> body[i] == rows[i + 1]
  {
    if rows == [] then [] else rows[1..]
  }

  ghost function Parsed(rows: seq<seq<string>>): seq<CaseStudy>
    requires WellFormed(rows)
  {
    var body := DataRows(rows);
    seq(|body|, i requires 0 <= i < |body| => ParseRow(body[i]))
  }

  /** The four sets the extraction loop accumulates. */
  datatype ValueSets = ValueSets(
    regions: set<string>,
    sectors: set<string>,
    impactGroups: set<string>,
    impactTypes: set<string>)

  /** The raw values collected from `studies`, added one case study at a time. */
  function Collected(studies: seq<CaseStudy>): (sets: ValueSets)
    ensures |sets.regions| <= |studies| && |sets.sectors| <= |studies| && |sets.impactGroups| <= |studies|
  {
    if studies == [] then ValueSets({}, {}, {}, {})
    else
      var sets, cs := Collected(studies[..|studies| - 1]), studies[|studies| - 1];
      ValueSets(sets.regions + {cs.region}, sets.sectors + {cs.sector},
                sets.impactGroups + {cs.impactGroup}, sets.impactTypes + set t | t in cs.impactTypes)
  }

  /** One more case study adds its own values to the collected sets. */
  lemma CollectedAppend(studies: seq<CaseStudy>, cs: CaseStudy)
    ensures var sets := Collected(studies);
      Collected(studies + [cs])
      == ValueSets(sets.regions + {cs.region}, sets.sectors + {cs.sector},
                   sets.impactGroups + {cs.impactGroup}, sets.impactTypes + set t | t in cs.impactTypes)
  {
    assert (studies + [cs])[..|studies|] == studies;
  }

  /** Every raw value of every case study is collected. */
  lemma {:induction false} CollectedHoldsEveryValue(studies: seq<CaseStudy>, k: nat)
    requires k < |studies|
    ensures var sets, cs := Collected(studies), studies[k];
      && cs.region in sets.regions && cs.sector in sets.sectors && cs.impactGroup in sets.impactGroups
      && forall t :: t in cs.impactTypes ==> t in sets.impactTypes
  {
    var n := |studies| - 1;
    if k < n {
      CollectedHoldsEveryValue(studies[..n], k);
    }
  }

  /** A case study of the input can only miss every value of a vocabulary when
      two values of that vocabulary collapsed onto one key. */
  lemma NoMatchNeedsCollision(studies: seq<CaseStudy>, vs: Vocabularies, k: nat)
    requires k < |studies|
    requires IsVocabularyFor(vs, Collected(studies))
    requires Redecorated(studies[k], vs).Failure?
    ensures !NoKeyCollision(Collected(studies))
  {
    var sets := Collected(studies);
    if NoKeyCollision(sets) {
      CollectedHoldsEveryValue(studies, k);
      RedecoratedWithoutCollisions(studies[k], vs, sets.regions, sets.sectors, sets.impactGroups, sets.impactTypes);
      assert false;
    }
  }

  ghost predicate IsVocabularyFor(vs: Vocabularies, sets: ValueSets) {
    && IsVocabularyOf(vs.regions, sets.regions)
    && IsVocabularyOf(vs.sectors, sets.sectors)
    && IsVocabularyOf(vs.impactGroups, sets.impactGroups)
    && IsVocabularyOf(vs.impactTypes, sets.impactTypes)
  }

  ghost predicate NoKeyCollision(sets: ValueSets) {
    && KeyInjectiveOn(sets.regions)
    && KeyInjectiveOn(sets.sectors)
    && KeyInjectiveOn(sets.impactGroups)
    && KeyInjectiveOn(sets.impactTypes)
  }

  /** Redecoration against `vs` rewrites the case studies before the `k`-th and
      fails at the `k`-th, on `field`. */
  ghost predicate FailsAt(studies: seq<CaseStudy>, vs: Vocabularies, k: nat, field: VocabularyField) {
    && k < |studies|
    && Redecorated(studies[k], vs) == Failure(field)
    && forall i :: 0 <= i < k ==> Redecorated(studies[i], vs).Success?
  }

  /** The first row after the header that is too short to index, if any. */
  predicate FirstShortRow(rows: seq<seq<string>>, row: nat) {
    && 1 <= row < |rows| && |rows[row]| < 6
    && forall i :: 1 <= i < row ==> |rows[i]| >= 6
  }

  /** The first `j` data rows are long enough and `studies` holds their case studies. */
  ghost predicate ReadSoFar(body: seq<seq<string>>, j: nat, studies: seq<CaseStudy>) {
    && j <= |body|
    && |studies| == j
    && forall i :: 0 <= i < j ==> |body[i]| >= 6 && studies[i] == ParseRow(body[i])
  }

  lemma ReadStep(body: seq<seq<string>>, j: nat, studies: seq<CaseStudy>, cs: CaseStudy)
    requires ReadSoFar(body, j, studies)
    requires j < |body| && |body[j]| >= 6 && cs == ParseRow(body[j])
    ensures ReadSoFar(body, j + 1, studies + [cs])
  {
    var next := studies + [cs];
    forall i | 0 <= i < j + 1
      ensures |body[i]| >= 6 && next[i] == ParseRow(body[i])
    {
      if i < j {
        assert next[i] == studies[i];
      }
    }
  }

  /** The loop of `extract_case_studies_with_value_lists`: skips the header row,
      builds one case study per remaining row and collects the raw values of the
      four vocabulary fields, stopping at the first row too short to index. */
  method ReadRows(rows: seq<seq<string>>) returns (r: Result<(seq<CaseStudy>, ValueSets), ExtractionError>)
    ensures r.Success? <==> WellFormed(rows)
    ensures r.Failure? ==> r.error.MalformedRow? && FirstShortRow(rows, r.error.row)
    ensures r.Success? ==> r.value.0 == Parsed(rows) && r.value.1 == Collected(r.value.0)
  {
    var body := DataRows(rows);
    var studies: seq<CaseStudy> := [];
    var regions, sectors, groups, types := {}, {}, {}, {};
    var j := 0;
    while j < |body|
      invariant 0 <= j <= |body|
      invariant ReadSoFar(body, j, studies)
      invariant ValueSets(regions, sectors, groups, types) == Collected(studies)
    {
      var row := body[j];
      if |row| < 6 {
        assert FirstShortRow(rows, j + 1) by {
          assert forall i :: 1 <= i < j + 1 ==> rows[i] == body[i - 1];
        }
        return Failure(MalformedRow(j + 1));
      }
      var tokens := ImpactTypeTokens(row[4]);
      regions := regions + {row[1]};
      sectors := sectors + {row[2]};
      groups := groups + {row[3]};
      types := types + set t | t in tokens;
      var cs := CaseStudy(row[0], row[1], row[2], row[3], tokens, CleanUpUrl(row[5]));
      CollectedAppend(studies, cs);
      ReadStep(body, j, studies, cs);
      studies := studies + [cs];
      j := j + 1;
    }
    assert WellFormed(rows) by {
      assert forall i :: 1 <= i < |rows| ==> rows[i] == body[i - 1];
    }
    assert studies == Parsed(rows);
    r := Success((studies, ValueSets(regions, sectors, groups, types)));
  }

  /** The call of `redecorate_case_studies` on the freshly built list: the
      rewritten case studies, or the first case study and field without a match. */
  method RedecorateList(studies: seq<CaseStudy>, vs: Vocabularies) returns (r: Result<seq<CaseStudy>, ExtractionError>)
    ensures r.Success? <==> forall i :: 0 <= i < |studies| ==> Redecorated(studies[i], vs).Success?
    ensures r.Success? ==>
      |r.value| == |studies| && forall i :: 0 <= i < |studies| ==> Redecorated(studies[i], vs) == Success(r.value[i])
    ensures r.Failure? ==> r.error.NoMatch? && FailsAt(studies, vs, r.error.study, r.error.field)
  {
    var a := new CaseStudy[|studies|](i requires 0 <= i < |studies| => studies[i]);
    assert forall i :: 0 <= i < a.Length ==> a[i] == studies[i];
    label before:
    var outcome := Redecorate(a, vs);
    assert forall i :: 0 <= i < a.Length ==> old@before(a[i]) == studies[i];
    if outcome.Fail? {
      return Failure(outcome.error);
    }
    r := Success(a[..]);
  }

  /** `extract_case_studies_with_value_lists`, from the `data` rows onwards: reads
      the rows, collects the four vocabularies, and redecorates the case studies
      against them. */
  method ExtractCaseStudies(rows: seq<seq<string>>) returns (r: Result<Extraction, ExtractionError>)
    ensures !WellFormed(rows) <==> r.Failure? && r.error.MalformedRow?
    ensures r.Failure? && r.error.MalformedRow? ==> FirstShortRow(rows, r.error.row)
    ensures r.Success? ==>
      var studies, vs := Parsed(rows), r.value.vocabularies;
      && IsVocabularyFor(vs, Collected(studies))
      && |r.value.studies| == |studies|
      && forall i :: 0 <= i < |studies| ==> Redecorated(studies[i], vs) == Success(r.value.studies[i])
    ensures WellFormed(rows) && NoKeyCollision(Collected(Parsed(rows))) ==> r.Success?
    ensures r.Failure? && r.error.NoMatch? ==>
      && WellFormed(rows)
      && var studies, k := Parsed(rows), r.error.study;
      && exists vs :: IsVocabularyFor(vs, Collected(studies)) && FailsAt(studies, vs, k, r.error.field)
  {
    var read := ReadRows(rows);
    if read.Failure? {
      return Failure(read.error);
    }
    var (studies, sets) := read.value;
    var regionDict := GetDict(sets.regions);
    var sectorDict := GetDict(sets.sectors);
    var groupDict := GetDict(sets.impactGroups);
    var typeDict := GetDict(sets.impactTypes);
    var vocabularies := Vocabularies(regionDict, sectorDict, groupDict, typeDict);
    var redecorated := RedecorateList(studies, vocabularies);
    if redecorated.Failure? {
      NoMatchNeedsCollision(studies, vocabularies, redecorated.error.study);
      return Failure(redecorated.error);
    }
    r := Success(Extraction(redecorated.value, vocabularies));
  }
}

=== FILE: node_tree.dfy ===
/** The node/property tree the decorator builds: nested insertion-ordered
    dictionaries whose values are scalars, string lists, timestamps or further
    dictionaries. Assignment follows Python's `d[name] = v`: an existing name keeps
    its position and takes the new value, a new name is appended. A dict
    display `{a: x, b: y}` is the same as assigning `a` and then `b` to `{}`. */
module NodeTree {
  import opened Wrappers
  import Text

  datatype Value =
    | Str(s: string)
    | Bool(b: bool)
    | Strs(items: seq<string>)
    | Time(stamp: int)
    | Dict(node: Node)

  /** A Python dict: its names in insertion order, and the value of each. */
  datatype Node = Node(names: seq<string>, props: map<string, Value>)

  const Empty: Node := Node([], map[])

  predicate Distinct(names: seq<string>) {
    forall i, j :: 0 <= i < j < |names| ==> names[i] != names[j]
  }

  /** Every name is listed once, and the listed names are exactly the keys. */
  predicate Valid(d: Node) {
    && Distinct(d.names)
    && (forall n :: n in d.props ==> n in d.names)
    && (forall n :: n in d.names ==> n in d.props)
  }

  /** `d.get(name)`. */
  function Get(d: Node, name: string): Option<Value> {
    if name in d.props then Some(d.props[name]) else None
  }

  /** `d[name] = v`. */
  function Put(d: Node, name: string, v: Value): (r: Node)
    ensures Get(r, name) == Some(v)
    ensures |r.names| <= |d.names| + 1
  {
    Node(if name in d.props then d.names else d.names + [name], d.props[name := v])
  }

  /** Assignment changes the value of the assigned name only. */
  lemma PutKeepsOthers(d: Node, name: string, v: Value, other: string)
    requires other != name
    ensures Get(Put(d, name, v), other) == Get(d, other)
  {
  }

  /** Assignment keeps every name listed once and the list in step with the keys;
      a new name goes to the end, an existing one keeps its place. */
  lemma PutValid(d: Node, name: string, v: Value)
    requires Valid(d)
    ensures Valid(Put(d, name, v))
    ensures Put(d, name, v).names == if name in d.names then d.names else d.names + [name]
  {
    if name !in d.props {
      var names := d.names + [name];
      forall i, j | 0 <= i < j < |names| ensures names[i] != names[j] {
        if j == |d.names| {
          assert names[i] == d.names[i] && names[i] in d.names;
        }
      }
    }
  }

  /** A second assignment to the same name replaces the first one outright. */
  lemma PutTwice(d: Node, name: string, a: Value, b: Value)
    ensures Put(Put(d, name, a), name, b) == Put(d, name, b)
  {
    assert Put(d, name, a).props[name := b] == d.props[name := b];
  }

  /** `path` leads through existing dictionaries, so `d[p0][p1]...` can be evaluated. */
  predicate Resolves(d: Node, path: seq<string>)
    decreases |path|
  {
    path == [] ||
    (var g := Get(d, path[0]); g.Some? && g.value.Dict? && Resolves(g.value.node, path[1..]))
  }

  /** A dictionary just assigned to `name` can be reached through `name`. */
  lemma PutResolves(d: Node, name: string, v: Node)
    ensures Resolves(Put(d, name, Dict(v)), [name])
  {
    assert Get(Put(d, name, Dict(v)), name) == Some(Dict(v));
    assert [name][1..] == [];
  }

  /** `d[p0]...[pk][name] = v`: nested assignment through existing dictionaries.
      Every dictionary on the path keeps its names; only the last one may gain `name`. */
  function PutPath(d: Node, path: seq<string>, name: string, v: Value): (r: Node)
    requires Resolves(d, path)
    ensures path != [] ==> r.names == d.names
    decreases |path|
  {
    if path == [] then Put(d, name, v)
    else Put(d, path[0], Dict(PutPath(Get(d, path[0]).value.node, path[1..], name, v)))
  }

  /** `d[p0]...[pk]`: the dictionary at the end of a path. */
  function At(d: Node, path: seq<string>): Node
    requires Resolves(d, path)
    decreases |path|
  {
    if path == [] then d else At(Get(d, path[0]).value.node, path[1..])
  }

  /** The dictionaries a path passes through before its end, each without the
      entry the path follows out of it. */
  function Along(d: Node, path: seq<string>): seq<Node>
    requires Resolves(d, path)
    decreases |path|
  {
    if path == [] then []
    else [Node(d.names, d.props - {path[0]})] + Along(Get(d, path[0]).value.node, path[1..])
  }

  /** Nested assignment stores `v` under `name` in the dictionary at the end of
      the path, as a plain assignment there would, and changes nothing else: every
      dictionary passed through keeps its names and all its other entries. */
  lemma {:induction false} PutPathSpec(d: Node, path: seq<string>, name: string, v: Value)
    requires Resolves(d, path)
    ensures var r := PutPath(d, path, name, v);
      && Resolves(r, path)
      && At(r, path) == Put(At(d, path), name, v)
      && Along(r, path) == Along(d, path)
    decreases |path|
  {
    if path != [] {
      var inner := Get(d, path[0]).value.node;
      var r := PutPath(d, path, name, v);
      var r' := PutPath(inner, path[1..], name, v);
      PutPathSpec(inner, path[1..], name, v);
      assert r == Put(d, path[0], Dict(r'));
      assert Get(r, path[0]) == Some(Dict(r'));
      assert r.props - {path[0]} == d.props - {path[0]};
    }
  }

  /** `d[top][name] = v` and then `d[top][name][child] = w`, as one assignment of the finished node. */
  lemma PutNested(d: Node, top: string, name: string, v: Node, child: string, w: Value)
    requires Resolves(d, [top])
    ensures Resolves(PutPath(d, [top], name, Dict(v)), [top, name])
    ensures PutPath(PutPath(d, [top], name, Dict(v)), [top, name], child, w)
         == PutPath(d, [top], name, Dict(Put(v, child, w)))
  {
    var path := [top, name];
    assert path[1..] == [name] && path[1..][1..] == [] && [top][1..] == [];
    var inner := Get(d, top).value.node;
    assert PutPath(inner, [], name, Dict(v)) == Put(inner, name, Dict(v));
    var d1 := PutPath(d, [top], name, Dict(v));
    assert d1 == Put(d, top, Dict(Put(inner, name, Dict(v))));
    var inner1 := Put(inner, name, Dict(v));
    assert Get(d1, top) == Some(Dict(inner1));
    assert Get(inner1, name) == Some(Dict(v));
    assert PutPath(v, [], child, w) == Put(v, child, w);
    assert PutPath(inner1, [name], child, w) == Put(inner1, name, Dict(Put(v, child, w)));
    var inner2 := Put(inner1, name, Dict(Put(v, child, w)));
    assert PutPath(d1, path, child, w) == Put(d1, top, Dict(inner2));
    PutTwice(inner, name, Dict(v), Dict(Put(v, child, w)));
    PutTwice(d, top, Dict(Put(inner, name, Dict(v))), Dict(Put(inner, name, Dict(Put(v, child, w)))));
  }

  /** The distinct strings of `s`, each where it first appears. */
  function FirstAppearances(s: seq<string>): (r: seq<string>)
    ensures Distinct(r)
    ensures forall x :: x in r <==> x in s
    decreases |s|
  {
    if s == [] then []
    else
      var n := |s| - 1;
      var prev := FirstAppearances(s[..n]);
      assert forall x :: x in s <==> x in s[..n] || x == s[n] by {
        assert s == s[..n] + [s[n]];
      }
      if s[n] in prev then prev
      else
        var r := prev + [s[n]];
        assert forall i :: 0 <= i < |prev| ==> r[i] == prev[i] && r[i] in prev;
        r
  }

  /** The key of each element, in order. */
  function Keys<A>(xs: seq<A>, key: A -> string): (ks: seq<string>)
    ensures |ks| == |xs|
    ensures forall i :: 0 <= i < |xs| ==> ks[i] == key(xs[i])
  {
    seq(|xs|, i requires 0 <= i < |xs| => key(xs[i]))
  }

  /** `for x, y in zip(xs, ys): d[key(x)] = value(x, y)`, where producing a
      value can fail and the first failure ends the loop. */
  function AssignAll<A, B, E>(d: Node, xs: seq<A>, ys: seq<B>, key: A -> string, value: (A, B) -> Result<Value, E>)
    : (r: Result<Node, E>)
    requires |xs| == |ys|
    ensures r.Success? ==> |r.value.names| <= |d.names| + |xs|
    decreases |xs|
  {
    if xs == [] then Success(d)
    else
      var n := |xs| - 1;
      var prefix :- AssignAll(d, xs[..n], ys[..n], key, value);
      var v :- value(xs[n], ys[n]);
      Success(Put(prefix, key(xs[n]), v))
  }

  /** The loop completes exactly when every value can be produced. */
  lemma {:induction false} AssignAllSucceeds<A, B, E>(
    d: Node, xs: seq<A>, ys: seq<B>, key: A -> string, value: (A, B) -> Result<Value, E>)
    requires |xs| == |ys|
    ensures AssignAll(d, xs, ys, key, value).Success? <==> forall i :: 0 <= i < |xs| ==> value(xs[i], ys[i]).Success?
    decreases |xs|
  {
    if xs != [] {
      var n := |xs| - 1;
      AssignAllSucceeds(d, xs[..n], ys[..n], key, value);
      var prefix := AssignAll(d, xs[..n], ys[..n], key, value);
      assert AssignAll(d, xs, ys, key, value).Success? <==> prefix.Success? && value(xs[n], ys[n]).Success?;
      assert prefix.Success? <==> forall i :: 0 <= i < n ==> value(xs[i], ys[i]).Success? by {
        assert forall i :: 0 <= i < n ==> xs[..n][i] == xs[i] && ys[..n][i] == ys[i];
      }
    }
  }

  /** One more round of the loop assigns the next element's value under its key. */
  lemma AssignAllStep<A, B, E>(
    d: Node, xs: seq<A>, ys: seq<B>, key: A -> string, value: (A, B) -> Result<Value, E>, i: nat)
    requires |xs| == |ys| && i < |xs|
    requires AssignAll(d, xs[..i], ys[..i], key, value).Success? && value(xs[i], ys[i]).Success?
    ensures AssignAll(d, xs[..i + 1], ys[..i + 1], key, value)
         == Success(Put(AssignAll(d, xs[..i], ys[..i], key, value).value, key(xs[i]), value(xs[i], ys[i]).value))
  {
    assert xs[..i + 1][..i] == xs[..i] && ys[..i + 1][..i] == ys[..i];
  }

  /** A run over a non-empty sequence: the shorter run, then the last value. */
  lemma AssignAllUnfold<A, B, E>(
    d: Node, xs: seq<A>, ys: seq<B>, key: A -> string, value: (A, B) -> Result<Value, E>)
    requires |xs| == |ys| && xs != []
    ensures var n := |xs| - 1;
      var prefix := AssignAll(d, xs[..n], ys[..n], key, value);
      AssignAll(d, xs, ys, key, value)
      == if prefix.Failure? then Failure(prefix.error)
         else if value(xs[n], ys[n]).Failure? then Failure(value(xs[n], ys[n]).error)
         else Success(Put(prefix.value, key(xs[n]), value(xs[n], ys[n]).value))
  {
  }

  /** The loop fails with the error of the first value that fails. */
  lemma {:induction false} AssignAllFirstFailure<A, B, E>(
    d: Node, xs: seq<A>, ys: seq<B>, key: A -> string, value: (A, B) -> Result<Value, E>, k: nat)
    requires |xs| == |ys| && k < |xs|
    requires value(xs[k], ys[k]).Failure?
    requires forall i :: 0 <= i < k ==> value(xs[i], ys[i]).Success?
    ensures AssignAll(d, xs, ys, key, value) == Failure(value(xs[k], ys[k]).error)
    decreases |xs|
  {
    var n := |xs| - 1;
    AssignAllUnfold(d, xs, ys, key, value);
    if k < n {
      assert xs[..n][k] == xs[k] && ys[..n][k] == ys[k];
      assert forall i :: 0 <= i < k ==> xs[..n][i] == xs[i] && ys[..n][i] == ys[i];
      AssignAllFirstFailure(d, xs[..n], ys[..n], key, value, k);
    } else {
      assert forall i :: 0 <= i < n ==> xs[..n][i] == xs[i] && ys[..n][i] == ys[i];
      AssignAllSucceeds(d, xs[..n], ys[..n], key, value);
    }
  }

  /** Assigning a name that is not among `base` to a node listing `base`
      followed by `prev` extends `prev` the way `FirstAppearances` does. */
  lemma PutAfter(base: seq<string>, d: Node, prev: seq<string>, name: string, v: Value)
    requires Valid(d) && d.names == base + prev && name !in base
    ensures Valid(Put(d, name, v))
    ensures Put(d, name, v).names == base + (if name in prev then prev else prev + [name])
  {
    PutValid(d, name, v);
    assert name in d.names <==> name in prev;
    Text.ConcatAssociative(base, prev, [name]);
  }

  /** A successful run is its shorter run followed by the last assignment. */
  lemma AssignAllLast<A, B, E>(
    d: Node, xs: seq<A>, ys: seq<B>, key: A -> string, value: (A, B) -> Result<Value, E>)
    requires |xs| == |ys| && xs != []
    requires AssignAll(d, xs, ys, key, value).Success?
    ensures var n := |xs| - 1;
      var prefix := AssignAll(d, xs[..n], ys[..n], key, value);
      && prefix.Success? && value(xs[n], ys[n]).Success?
      && AssignAll(d, xs, ys, key, value) == Success(Put(prefix.value, key(xs[n]), value(xs[n], ys[n]).value))
  {
  }

  lemma FirstAppearancesLast(s: seq<string>)
    requires s != []
    ensures var prev := FirstAppearances(s[..|s| - 1]);
      FirstAppearances(s) == if s[|s| - 1] in prev then prev else prev + [s[|s| - 1]]
  {
  }

  lemma KeysPrefix<A>(xs: seq<A>, key: A -> string, n: nat)
    requires n <= |xs|
    ensures Keys(xs, key)[..n] == Keys(xs[..n], key)
  {
  }

  /** Keys new to `d` are listed after `d`'s own names, once each, in the order
      they first appear. */
  lemma {:induction false} AssignAllNames<A, B, E>(
    d: Node, xs: seq<A>, ys: seq<B>, key: A -> string, value: (A, B) -> Result<Value, E>)
    requires |xs| == |ys| && Valid(d)
    requires forall i :: 0 <= i < |xs| ==> key(xs[i]) !in d.names
    requires AssignAll(d, xs, ys, key, value).Success?
    ensures Valid(AssignAll(d, xs, ys, key, value).value)
    ensures AssignAll(d, xs, ys, key, value).value.names == d.names + FirstAppearances(Keys(xs, key))
    decreases |xs|
  {
    if xs == [] {
      assert d.names + [] == d.names;
    } else {
      var n := |xs| - 1;
      AssignAllLast(d, xs, ys, key, value);
      assert forall i :: 0 <= i < n ==> xs[..n][i] == xs[i];
      AssignAllNames(d, xs[..n], ys[..n], key, value);
      KeysPrefix(xs, key, n);
      FirstAppearancesLast(Keys(xs, key));
      PutAfter(d.names, AssignAll(d, xs[..n], ys[..n], key, value).value,
        FirstAppearances(Keys(xs[..n], key)), key(xs[n]), value(xs[n], ys[n]).value);
    }
  }

  /** Only the keys are assigned: every other name keeps its value in `d`. */
  lemma {:induction false} AssignAllKeeps<A, B, E>(
    d: Node, xs: seq<A>, ys: seq<B>, key: A -> string, value: (A, B) -> Result<Value, E>, name: string)
    requires |xs| == |ys|
    requires forall i :: 0 <= i < |xs| ==> key(xs[i]) != name
    requires AssignAll(d, xs, ys, key, value).Success?
    ensures Get(AssignAll(d, xs, ys, key, value).value, name) == Get(d, name)
    decreases |xs|
  {
    if xs != [] {
      var n := |xs| - 1;
      assert forall i :: 0 <= i < n ==> xs[..n][i] == xs[i];
      AssignAllKeeps(d, xs[..n], ys[..n], key, value, name);
    }
  }

  /** The last assignment to a key wins. */
  lemma {:induction false} AssignAllLastWins<A, B, E>(
    d: Node, xs: seq<A>, ys: seq<B>, key: A -> string, value: (A, B) -> Result<Value, E>, i: nat)
    requires |xs| == |ys| && i < |xs|
    requires forall j :: i < j < |xs| ==> key(xs[j]) != key(xs[i])
    requires AssignAll(d, xs, ys, key, value).Success?
    ensures value(xs[i], ys[i]).Success?
    ensures Get(AssignAll(d, xs, ys, key, value).value, key(xs[i])) == Some(value(xs[i], ys[i]).value)
    decreases |xs|
  {
    var n := |xs| - 1;
    if i < n {
      assert xs[..n][i] == xs[i] && ys[..n][i] == ys[i];
      assert forall j :: i < j < n ==> xs[..n][j] == xs[j];
      AssignAllLastWins(d, xs[..n], ys[..n], key, value, i);
    }
  }
}

=== FILE: text.dfy ===
/** The Python string primitives the pipeline is built from: `str.isspace`,
    `str.split(sep)`, `str.strip()`, `str.lower()` on ASCII, `re.sub(r'\s+', '_', s)`,
    the substring test `needle in hay`, `str.rfind` and the code-point ordering
    of strings that sorted containers use. */
module Text {

  /** Python's `str.isspace()` (also the `\s` class of a `str` pattern). */
  predicate IsSpace(c: char)
    ensures c == ' ' || c == '\t' || c == '\n' || c == '\r' ==> IsSpace(c)
    ensures IsSpace(c) ==> !IsAsciiLetter(c) && !IsDigit(c) && c != '_' && c != '-'
  {
    var n := c as int;
    (9 <= n <= 13) || (28 <= n <= 32) || n == 0x85 || n == 0xA0 || n == 0x1680
    || (0x2000 <= n <= 0x200A) || n == 0x2028 || n == 0x2029 || n == 0x202F
    || n == 0x205F || n == 0x3000
  }

  predicate IsDigit(c: char) {
    '0' <= c <= '9'
  }

  predicate IsAsciiLetter(c: char) {
    ('A' <= c <= 'Z') || ('a' <= c <= 'z')
  }

  predicate IsAscii(s: string) {
    forall i :: 0 <= i < |s| ==> s[i] as int < 128
  }

  predicate NoSpace(s: string) {
    forall i :: 0 <= i < |s| ==> !IsSpace(s[i])
  }

  /** `str.lower()` on one character; only ASCII letters are ever lowered here. */
  function LowerChar(c: char): (d: char)
    ensures 'A' <= c <= 'Z' ==> 'a' <= d <= 'z' && d as int == c as int + 32
    ensures !('A' <= c <= 'Z') ==> d == c
  {
    if 'A' <= c <= 'Z' then (c as int + 32) as char else c
  }

  function Lower(s: string): (r: string)
    ensures |r| == |s|
    ensures forall i :: 0 <= i < |s| ==> r[i] == LowerChar(s[i])
  {
    seq(|s|, i requires 0 <= i < |s| => LowerChar(s[i]))
  }

  /** `s.replace(a, b)` for single characters. */
  function ReplaceChar(s: string, a: char, b: char): (r: string)
    ensures |r| == |s|
    ensures forall i :: 0 <= i < |s| ==> r[i] == (if s[i] == a then b else s[i])
  {
    seq(|s|, i requires 0 <= i < |s| => if s[i] == a then b else s[i])
  }

  /** `s[:n]`. */
  function Take(s: string, n: nat): (r: string)
    ensures r <= s
    ensures |r| == if |s| <= n then |s| else n
  {
    if |s| <= n then s else s[..n]
  }

  /** `re.sub(r'[^C]+', '', s)`: keeps exactly the characters of class `keep`, in order. */
  function Filter(s: string, keep: char -> bool): (r: string)
    ensures |r| <= |s|
    ensures forall i :: 0 <= i < |r| ==> keep(r[i]) && r[i] in s
    ensures (forall i :: 0 <= i < |s| ==> keep(s[i])) ==> r == s
    ensures |s| == 1 ==> r == if keep(s[0]) then s else []
  {
    if s == [] then [] else (if keep(s[0]) then [s[0]] else []) + Filter(s[1..], keep)
  }

  /** Filtering works piece by piece: with the one-character case above, every
      kept character of the input survives, in order, and nothing else does. */
  lemma {:induction false} FilterAppend(a: string, b: string, keep: char -> bool)
    ensures Filter(a + b, keep) == Filter(a, keep) + Filter(b, keep)
    decreases |a|
  {
    if a != [] {
      assert (a + b)[1..] == a[1..] + b;
      FilterAppend(a[1..], b, keep);
    } else {
      assert a + b == b;
    }
  }

  /** `re.sub(r'\s+', '_', s)`: every maximal run of whitespace becomes one `_`.
      The `_` is written at the last character of a run. */
  function CollapseSpace(s: string): (r: string)
    ensures |r| <= |s|
    ensures NoSpace(r)
    ensures forall i :: 0 <= i < |r| ==> r[i] == '_' || r[i] in s
    ensures NoSpace(s) ==> r == s
  {
    if s == [] then []
    else if IsSpace(s[0]) then
      (if |s| > 1 && IsSpace(s[1]) then [] else ['_']) + CollapseSpace(s[1..])
    else [s[0]] + CollapseSpace(s[1..])
  }

  /** A run of whitespace alone collapses to a single `_`. */
  lemma {:induction false} CollapseSpaceRun(w: string)
    requires w != [] && forall i :: 0 <= i < |w| ==> IsSpace(w[i])
    ensures CollapseSpace(w) == "_"
    decreases |w|
  {
    if |w| > 1 {
      CollapseSpaceRun(w[1..]);
    }
  }

  /** Text cut where no whitespace run is split collapses piece by piece; with
      `CollapseSpaceRun`, every maximal whitespace run becomes exactly one `_`. */
  lemma {:induction false} CollapseSpaceAppend(a: string, b: string)
    requires a == [] || b == [] || !IsSpace(a[|a| - 1]) || !IsSpace(b[0])
    ensures CollapseSpace(a + b) == CollapseSpace(a) + CollapseSpace(b)
    decreases |a|
  {
    if a == [] {
      assert a + b == b;
    } else {
      assert |a| > 1 ==> a[1..][|a[1..]| - 1] == a[|a| - 1];
      CollapseSpaceAppend(a[1..], b);
      CollapseSpaceAppendStep(a, b);
    }
  }

  /** The inductive step of `CollapseSpaceAppend`: from the tail's case to `a`'s. */
  lemma CollapseSpaceAppendStep(a: string, b: string)
    requires a != []
    requires b == [] || !IsSpace(a[|a| - 1]) || !IsSpace(b[0])
    requires CollapseSpace(a[1..] + b) == CollapseSpace(a[1..]) + CollapseSpace(b)
    ensures CollapseSpace(a + b) == CollapseSpace(a) + CollapseSpace(b)
  {
    var t := a[1..];
    calc {
      CollapseSpace(a + b);
    == { CollapseSpaceCons(a + b); CollapseHeadAppend(a, b); TailOfAppend(a, b); }
      CollapseHead(a) + CollapseSpace(t + b);
    ==
      CollapseHead(a) + (CollapseSpace(t) + CollapseSpace(b));
    == { ConcatAssociative(CollapseHead(a), CollapseSpace(t), CollapseSpace(b)); }
      (CollapseHead(a) + CollapseSpace(t)) + CollapseSpace(b);
    == { CollapseSpaceCons(a); }
      CollapseSpace(a) + CollapseSpace(b);
    }
  }

  lemma TailOfAppend(a: string, b: string)
    requires a != []
    ensures (a + b)[1..] == a[1..] + b
  {
  }

  /** What the first character of `s` contributes to `CollapseSpace(s)`. */
  function CollapseHead(s: string): string
    requires s != []
  {
    if !IsSpace(s[0]) then [s[0]] else if |s| > 1 && IsSpace(s[1]) then [] else "_"
  }

  lemma CollapseHeadAppend(a: string, b: string)
    requires a != []
    requires b == [] || !IsSpace(a[|a| - 1]) || !IsSpace(b[0])
    ensures CollapseHead(a + b) == CollapseHead(a)
  {
    var s := a + b;
    assert s[0] == a[0];
    assert |a| > 1 ==> s[1] == a[1];
    assert |a| == 1 && b != [] ==> s[1] == b[0];
  }

  lemma CollapseSpaceCons(s: string)
    requires s != []
    ensures CollapseSpace(s) == CollapseHead(s) + CollapseSpace(s[1..])
  {
  }

  lemma ConcatAssociative<T>(a: seq<T>, b: seq<T>, c: seq<T>)
    ensures a + (b + c) == (a + b) + c
  {
  }

  /** Collapsing whitespace brings in no character but `_`. */
  lemma CollapseSpaceAvoids(s: string, c: char)
    requires c !in s && c != '_'
    ensures c !in CollapseSpace(s)
  {
    var r := CollapseSpace(s);
    forall i | 0 <= i < |r| ensures r[i] != c {
      assert r[i] == '_' || r[i] in s;
    }
  }

  /** The characters of a string other than whitespace and `_`, in order. */
  function Solid(s: string): string {
    if s == [] then [] else (if IsSpace(s[0]) || s[0] == '_' then [] else [s[0]]) + Solid(s[1..])
  }

  /** Collapsing whitespace loses nothing but whitespace: apart from the
      underscores, the result holds exactly the input's other characters, in order. */
  lemma {:induction false} CollapseSpaceKeepsSolid(s: string)
    ensures Solid(CollapseSpace(s)) == Solid(s)
  {
    if s != [] {
      CollapseSpaceKeepsSolid(s[1..]);
      var tail := CollapseSpace(s[1..]);
      if IsSpace(s[0]) {
        if |s| > 1 && IsSpace(s[1]) {
          assert CollapseSpace(s) == tail;
        } else {
          assert CollapseSpace(s) == ['_'] + tail;
          assert Solid(['_'] + tail) == Solid(tail) by {
            assert (['_'] + tail)[1..] == tail;
          }
        }
      } else {
        assert CollapseSpace(s) == [s[0]] + tail;
        assert ([s[0]] + tail)[1..] == tail;
      }
    }
  }

  /** Python's `str.lstrip()`. */
  function TrimStart(s: string): (r: string)
    ensures |r| <= |s| && r == s[|s| - |r|..]
    ensures forall i :: 0 <= i < |s| - |r| ==> IsSpace(s[i])
    ensures r != [] ==> !IsSpace(r[0])
  {
    if s != [] && IsSpace(s[0]) then TrimStart(s[1..]) else s
  }

  /** Python's `str.rstrip()`. */
  function TrimEnd(s: string): (r: string)
    ensures |r| <= |s| && r == s[..|r|]
    ensures forall i :: |r| <= i < |s| ==> IsSpace(s[i])
    ensures r != [] ==> !IsSpace(r[|r| - 1])
  {
    if s != [] && IsSpace(s[|s| - 1]) then TrimEnd(s[..|s| - 1]) else s
  }

  /** Python's `str.strip()`: the result is the slice of `s` left once the
      leading and trailing whitespace is gone. */
  function Strip(s: string): (r: string)
    ensures |r| <= |s|
    ensures r != [] ==> !IsSpace(r[0]) && !IsSpace(r[|r| - 1])
    ensures var lead := |s| - |TrimStart(s)|;
      && lead + |r| <= |s|
      && r == s[lead..lead + |r|]
      && (forall i :: 0 <= i < lead ==> IsSpace(s[i]))
      && (forall i :: lead + |r| <= i < |s| ==> IsSpace(s[i]))
  {
    TrimEnd(TrimStart(s))
  }

  /** Index of the first `c` in `s`, or `|s|` when there is none. */
  function IndexOf(s: string, c: char): (i: nat)
    ensures i <= |s|
    ensures i < |s| ==> s[i] == c
    ensures forall j :: 0 <= j < i ==> s[j] != c
  {
    if s == [] || s[0] == c then 0 else 1 + IndexOf(s[1..], c)
  }

  /** Python's `s.rfind(c)`: the last index of `c`, or -1. */
  function LastIndexOf(s: string, c: char): (i: int)
    ensures -1 <= i < |s|
    ensures 0 <= i ==> s[i] == c
    ensures forall j :: i < j < |s| ==> s[j] != c
  {
    if s == [] then -1
    else if s[|s| - 1] == c then |s| - 1
    else LastIndexOf(s[..|s| - 1], c)
  }

  /** No `c` follows the last one. */
  lemma AfterLastIndexOf(s: string, c: char)
    ensures c !in s[LastIndexOf(s, c) + 1..]
  {
    var rest := s[LastIndexOf(s, c) + 1..];
    forall j | 0 <= j < |rest| ensures rest[j] != c {
    }
  }

  /** Characters appended after the last `c` do not move it. */
  lemma {:induction false} LastIndexOfAppend(a: string, b: string, c: char)
    requires c !in b
    ensures LastIndexOf(a + b, c) == LastIndexOf(a, c)
    decreases |b|
  {
    if b == [] {
      assert a + b == a;
    } else {
      var s := a + b;
      assert s[..|s| - 1] == a + b[..|b| - 1];
      assert s[|s| - 1] == b[|b| - 1] && b[|b| - 1] in b;
      LastIndexOfAppend(a, b[..|b| - 1], c);
    }
  }

  /** Python's `s.split(sep)` for a one-character separator. */
  function Split(s: string, sep: char): (parts: seq<string>)
    ensures |parts| >= 1
    ensures forall i :: 0 <= i < |parts| ==> sep !in parts[i]
    decreases |s|
  {
    var i := IndexOf(s, sep);
    if i == |s| then [s] else [s[..i]] + Split(s[i + 1..], sep)
  }

  /** Python's `sep.join(parts)`. */
  function Join(parts: seq<string>, sep: char): string {
    if parts == [] then []
    else if |parts| == 1 then parts[0]
    else parts[0] + [sep] + Join(parts[1..], sep)
  }

  lemma JoinCons(p: string, tail: seq<string>, sep: char)
    requires |tail| >= 1
    ensures Join([p] + tail, sep) == p + [sep] + Join(tail, sep)
  {
    assert ([p] + tail)[1..] == tail;
  }

  lemma SplitAround(s: string, i: nat)
    requires i < |s|
    ensures s == s[..i] + [s[i]] + s[i + 1..]
  {
  }

  lemma {:induction false} JoinSplit(s: string, sep: char)
    ensures Join(Split(s, sep), sep) == s
    decreases |s|
  {
    var i := IndexOf(s, sep);
    if i < |s| {
      var rest := s[i + 1..];
      var tail := Split(rest, sep);
      assert Split(s, sep) == [s[..i]] + tail;
      JoinCons(s[..i], tail, sep);
      JoinSplit(rest, sep);
      SplitAround(s, i);
    }
  }

  lemma {:induction false} IndexOfAfterPart(p: string, sep: char, t: string)
    requires sep !in p
    ensures IndexOf(p + [sep] + t, sep) == |p|
  {
    if p != [] {
      assert (p + [sep] + t)[1..] == p[1..] + [sep] + t;
      IndexOfAfterPart(p[1..], sep, t);
    }
  }

  lemma {:induction false} SplitJoin(parts: seq<string>, sep: char)
    requires |parts| >= 1
    requires forall i :: 0 <= i < |parts| ==> sep !in parts[i]
    ensures Split(Join(parts, sep), sep) == parts
  {
    if |parts| == 1 {
      assert IndexOf(parts[0], sep) == |parts[0]|;
    } else {
      var p, rest := parts[0], parts[1..];
      var s := p + [sep] + Join(rest, sep);
      IndexOfAfterPart(p, sep, Join(rest, sep));
      assert s[..|p|] == p;
      assert s[|p| + 1..] == Join(rest, sep);
      SplitJoin(rest, sep);
      assert parts == [p] + rest;
    }
  }

  /** Python's `needle in hay` on two strings. */
  predicate Contains(hay: string, needle: string)
    ensures Contains(hay, needle) ==> |needle| <= |hay|
    decreases |hay|
  {
    needle <= hay || (hay != [] && Contains(hay[1..], needle))
  }

  lemma {:induction false} ContainsItself(s: string)
    ensures Contains(s, s)
  {
  }

  /** `s.endswith(suffix)`. */
  predicate EndsWith(s: string, suffix: string)
    ensures EndsWith(s, suffix) ==> |suffix| <= |s| && s[..|s| - |suffix|] + suffix == s
  {
    |suffix| <= |s| && s[|s| - |suffix|..] == suffix
  }

  /** Conversely, whatever is put in front of a suffix, the result ends with it. */
  lemma EndsWithConcat(head: string, suffix: string)
    ensures EndsWith(head + suffix, suffix)
  {
    assert (head + suffix)[|head|..] == suffix;
  }

  /** The ordering of Python strings: lexicographic by code point, a proper
      prefix coming first. */
  predicate Less(a: string, b: string)
    ensures Less(a, b) ==> a != b
    decreases |a|
  {
    if a == [] then b != []
    else b != [] && (a[0] < b[0] || (a[0] == b[0] && Less(a[1..], b[1..])))
  }

  lemma {:induction false} LessIrreflexive(a: string)
    ensures !Less(a, a)
  {
    if a != [] {
      LessIrreflexive(a[1..]);
    }
  }

  lemma {:induction false} LessTransitive(a: string, b: string, c: string)
    requires Less(a, b) && Less(b, c)
    ensures Less(a, c)
    decreases |a|
  {
    if a != [] && a[0] == b[0] && b[0] == c[0] {
      LessTransitive(a[1..], b[1..], c[1..]);
    }
  }

  lemma {:induction false} LessTotal(a: string, b: string)
    requires a != b
    ensures Less(a, b) || Less(b, a)
    decreases |a|
  {
    if a != [] && b != [] && a[0] == b[0] {
      assert a == [a[0]] + a[1..] && b == [b[0]] + b[1..];
      LessTotal(a[1..], b[1..]);
    }
  }

  /** A sequence of strings in strictly ascending order (hence without duplicates). */
  predicate Ascending(s: seq<string>) {
    forall i, j :: 0 <= i < j < |s| ==> Less(s[i], s[j])
  }

}

=== FILE: wrappers.dfy ===
/** Failure-compatible wrappers used for the error paths of the pipeline
    (a Python exception that aborts the run becomes a Failure value). */
module Wrappers {

  datatype Option<+T> = None | Some(value: T)

  datatype Result<+R, +E> = Success(value: R) | Failure(error: E) {
    predicate IsFailure() {
      Failure?
    }

    function PropagateFailure<U>(): Result<U, E>
      requires Failure?
    {
      Failure(error)
    }

    function Extract(): R
      requires Success?
    {
      value
    }
  }

  /** Success or failure of an operation that produces no value. */
  datatype Outcome<+E> = Pass | Fail(error: E)
}
